=== FILE: README.md ===
# xml2json, modelled in Dafny

A model of the converter core of `xml2json`, a command-line tool that turns
XML into a JSON document and back.

**XML to JSON (`convertXMLToJSON`).** This direction walks the XML
tokenizer's output. Processing instructions become the
`xml_declaration` list. A `DOCTYPE` directive becomes
`xml_document_type_definition`. Elements become nested maps in
`xml_data`: attributes are strings under their local names, and trimmed
text goes under `#text`.

**JSON to XML (`convertJSONToXML`).** This direction writes the
declarations and the DTD as header lines. It then walks the maps
(`mapToXML`), emitting start, end and character-data tokens, and trims
the result.

**The rest of the core.**
- `XmlJsonConverter` chooses the direction.
- The helpers in `fixed_phrases.go` are modelled too:
  - the file name without its extension;
  - the revision derived from the build settings, and the version string;
  - the registry of embedded tools: setup into a temporary directory, lookup, execution lookup and cleanup.

**Modules.**
- `Results`: `Option` and `Result`.
- `Text`: `unicode.IsSpace` and `TrimSpace`.
- `JsonTree`: the JSON value tree, paths into it, `Lookup`, `SetNode` and `Put`.
- `XmlTokens`: the token stream, and nesting of start and end tokens.
- `TreeBuilder`: the token loop of `convertXMLToJSON`. `BuilderFacts` holds what it does.
- `TreeEmitter`: `mapToXML` and the top-level loop of `convertJSONToXML`. `EmitterFacts` holds their properties.
- `RoundTrip`: emitting a tree and building it back, together with the counterexample for the push rule as written.
- `Converter`: the direction switch.
- `FilePaths`: `filepath.Ext`, `Base` and `Join` for '/', and `GetFileNameWithoutExt`.
- `BuildInfo`: the revision and `GetVersion`.
- `ToolRegistry`: `SetupTool`, `GetToolPath`, `IsToolAvailable`, `ExecuteTool`'s lookup, `CleanupTools` and the package initialiser.

**How Go constructs are represented.**
- *The current map.* Go keeps `currentMap` and the entries of `stack` as
  aliases into the one tree being built. The model keeps key paths from the root instead.
  `TreeBuilder.Inv` states that these paths describe one chain of nested maps.
  The stack holds ancestors of the current path, and each stack entry followed by its key-stack
  entry leads towards the current map. `TreeBuilder.Step` preserves `Inv`.
- *Map iteration order.* Go's order is unspecified. It is a parameter
  `order` that lists the keys of the map at each path. The properties hold for every
  order that lists each key exactly once (`TreeEmitter.ValidOrder`).
- *Panics.* Go panics in `XmlJsonConverter` and in the failed type
  assertion of `convertJSONToXML`. Both are `Failure` results in the model.

## Model

| member | source | states |
|---|---|---|
| TreeBuilder.Step | xml.go:96-132 | one iteration of the token loop keeps the current map, the map stack and the key stack describing one chain of nested maps of the tree being built |
| TreeBuilder.AttrMap | xml.go:105-108 | the new element's map has exactly the local names of its attributes as keys |
| TreeBuilder.AttrMapLastWins | xml.go:106-108 | of several attributes with one local name, the value of the last one is kept |
| BuilderFacts.RunAppend | xml.go:88-133 | running the loop over two streams in turn is running it over their concatenation |
| BuilderFacts.RunDeclarations | xml.go:97-99 | each processing instruction, at any depth, appends "<?target inst?>" to the declaration list in stream order; no other token touches the list |
| BuilderFacts.RunDoctype | xml.go:100-103 | the document type is that of the last directive starting with DOCTYPE, wrapped as "<!...>"; without one it is unchanged |
| BuilderFacts.StartElementStep | xml.go:104-117 | a start element stores its attribute map under its local name in the current map, replacing a sibling of that name, and descends into it; it pushes the parent exactly when the push rule fires, and the as-written rule is "current map non-empty"; no map off the path to the current map and outside the new entry changes, the maps above it keep all their other entries, and declarations and DOCTYPE stay |
| BuilderFacts.EndElementStep | xml.go:119-125 | an end element pops only a non-empty stack, then returns to the map on top of the stack, which lies above the one being left; the tree, declarations and DOCTYPE are untouched |
| BuilderFacts.CharDataStep | xml.go:127-131 | white-space-only text changes nothing; other text, trimmed, becomes the current map's #text entry and replaces an earlier one, no map off the path to the current map changes, and the maps above it keep all their other entries |
| BuilderFacts.IgnoredTokens | xml.go:96-132 | comments and directives other than DOCTYPE leave the state unchanged |
| TreeBuilder.Run | xml.go:88-133 | the loop over a whole token stream keeps the current map, the map stack and the key stack describing one chain of nested maps, so every pop returns to a map still in the tree |
| TreeBuilder.ConvertFrom | xml.go:88-133 | the loop fails exactly when the tokenizer reports an error somewhere in the stream; otherwise the document holds the declarations, DOCTYPE and tree the loop built from all tokens |
| TreeBuilder.ConvertXmlToJson | xml.go:80-144 | starting from an empty tree, the conversion fails exactly when the tokenizer reports an error; on success every item was a token and the document is what the loop built from them |
| BuilderFacts.FirstErrorReported | xml.go:89-94 | of several tokenizer errors, the first is the one returned: the loop stops reading there |
| JsonTree.PutFrame | xml.go:110-130 | `m[k] = v` on the map at a path changes no map other than those on that path and below the entry `k` |
| JsonTree.PutAncestors | xml.go:110-130 | `m[k] = v` on the map at a path changes each map above it only in the entry leading down the path, which stays a map; their attribute strings, `#text` and other children stay |
| TreeEmitter.MapToXml | xml.go:49-53 | a map's tokens begin with a start element named by its key, without namespace or attributes |
| TreeEmitter.MapToXmlNests | xml.go:49-77 | a map's tokens followed by its end token are balanced: every end token closes the innermost open element |
| TreeEmitter.EmitTop | xml.go:172-182 | a successful top-level loop produces no start tag without a name; a type failure names a key whose value is not a map |
| TreeEmitter.JsonToXml | xml.go:183-186 | the output text neither starts nor ends with white space |
| EmitterFacts.EmitTopNests | xml.go:172-182 | the tokens of all top-level elements together are balanced |
| EmitterFacts.MapToXmlTokens | xml.go:55-73 | every emitted token is a start or end element without namespace or attributes, or character data stored under #text somewhere in the tree |
| EmitterFacts.Skeleton | xml.go:56-73 | the part of a value the walk reads: in every map the #text string and the nested maps, reduced in turn; no other string survives, and the kept #text string is the original |
| EmitterFacts.MapToXmlSkeleton | xml.go:55-73 | for every visiting order, a map and its skeleton emit the same tokens, so attribute strings and values of other kinds produce nothing |
| EmitterFacts.EmitTopSkeleton | xml.go:172-182 | the top-level loop has the same outcome, tokens or error, on a tree and on the tree with every value reduced to its skeleton |
| EmitterFacts.JsonToXmlSkeleton | xml.go:147-186 | the converter writes the same text for a document and for its skeleton, whatever the visiting order and rendering |
| EmitterFacts.MapToXmlUnnamed | xml.go:50-53 | the encoder meets a start tag without a name exactly when the element's key or some nested map key is empty |
| EmitterFacts.EmitTopFails | xml.go:172-182 | the top-level loop fails exactly when some top-level value is not a map or contains an empty element name |
| EmitterFacts.JsonToXmlOutcome | xml.go:147-186 | the conversion fails exactly when some top-level value is bad; otherwise the top-level loop succeeded, its own tokens are balanced, and the output is the trimmed header followed by the rendering of exactly those tokens |
| EmitterFacts.HeaderLines | xml.go:159-167 | read back line by line, the header gives the declarations in order, then the DTD when it is non-empty |
| Converter.ConvertJsonToXml | xml.go:147-186 | a decoding error is returned as a decoding failure, before anything is written; after a successful decode the result is exactly `JsonToXml`'s text, or its encoding error |
| Converter.XmlJsonConverter | xml.go:25-46 | the flag picks the direction: when set, the output is the document `ConvertXmlToJson` built (push-always rule) or its error; otherwise it is the text `JsonToXml` produced from the decoded document, or the error `ConvertJsonToXml` gives |
| Converter.ConverterFails | xml.go:25-46 | the converter fails exactly when the tokenizer reports an error (XML to JSON), or when decoding fails or a top-level value is bad (JSON to XML) |
| RoundTrip.MapToXmlRebuilds | xml.go:49-77 | building an element's emitted tokens with the push-always rule puts exactly that element's map into the current map and restores the rest of the state |
| RoundTrip.EmitThenBuild | xml.go:49-132 | under the push-always rule, converting the emitted tokens back gives the original tree for every visiting order, when every top-level value is a map of trimmed #text strings and maps |
| RoundTrip.AsWrittenLosesNesting | xml.go:109-117 | on `<r><a/><b/></r>` the rule as written builds {r:{a:{b:{}}}}, while the push-always rule gives back {r:{a:{},b:{}}} |
| Text.TrimSpace | xml.go:128 | the result is the input with a white-space-only prefix and suffix removed, and it neither starts nor ends with white space |
| FilePaths.Ext | fixed_phrases.go:140 | the extension is a suffix of the path |
| FilePaths.ExtSpec | fixed_phrases.go:140 | a non-empty extension starts with '.' and contains no other '.' and no separator; it is empty exactly when every '.' lies before a separator |
| FilePaths.Base | fixed_phrases.go:140 | the base is "." for the empty path and "/" for a path of separators; otherwise it is the separator-free last element of the path with trailing separators dropped |
| FilePaths.Join | fixed_phrases.go:205 | a directory and an element, both non-empty, are joined by one separator; an empty side gives the other side |
| FilePaths.JoinThenBase | fixed_phrases.go:205 | the base name of a directory joined with a plain element (non-empty, no separator, neither "." nor "..") is that element, so each tool file keeps its asset's base name |
| FilePaths.FileNameWithoutExt | fixed_phrases.go:139-141 | the result is never empty; unless it is "." or "/", it is a separator-free run of the path's characters that ends before the extension |
| FilePaths.FileNameWithoutExtOfStem | fixed_phrases.go:139-141 | for a directory, a stem and its extension, the result is the stem |
| FilePaths.DoubleExtensionExample | fixed_phrases.go:139-141 | only the last extension is removed: "dir/a.tar.gz" gives "a.tar" |
| FilePaths.DotFileGivesDirectory | fixed_phrases.go:139-141 | a hidden file's whole name is its extension, so "dir/.bashrc" gives "dir" |
| BuildInfo.ComputeRevision | fixed_phrases.go:26-47 | the single pass over the settings gives the last vcs.revision shortened, with "develop+" in front exactly when the last vcs.modified is "true" |
| BuildInfo.GetVersion | fixed_phrases.go:108-115 | the version string is "<name> version <version>", followed by "." and the revision exactly when there is a revision |
| BuildInfo.NoTrailingDot | fixed_phrases.go:109-111 | when neither the version nor the revision ends in '.', the version string does not end in '.'; in particular a missing revision leaves none |
| ToolRegistry.SetupTool | fixed_phrases.go:183-217 | setup succeeds exactly when a directory is set or created, the asset is found and the write succeeds; otherwise the error is TempDirFailed (registry unchanged), AssetMissing or WriteFailed, in that order of checks; the directory is created only when none is set; success records the tool at the directory joined with the asset's base name and replaces an earlier entry; a failure records nothing |
| ToolRegistry.SetupKeepsDirectory | fixed_phrases.go:186-196 | with a directory already set, what creating one would answer is irrelevant |
| ToolRegistry.SetupPreservesValid | fixed_phrases.go:183-217 | setup keeps the registry valid: a directory is set exactly when it is initialized, and every tool path lies in that directory |
| ToolRegistry.SetupRegisters | fixed_phrases.go:203-211 | after a successful setup the tool is available at the path written, and every other tool's lookup is unchanged |
| ToolRegistry.GetToolPath | fixed_phrases.go:220-223 | the lookup reports a path exactly for registered tools, and "" otherwise |
| ToolRegistry.IsToolAvailable | fixed_phrases.go:226-229 | a tool is available exactly when the path lookup reports it |
| ToolRegistry.CommandFor | fixed_phrases.go:232-242 | execution refuses an unregistered tool as not initialized; otherwise it runs the recorded path with the given arguments |
| ToolRegistry.ExecuteTool | fixed_phrases.go:232-249 | it fails as not initialized exactly for an unregistered tool; otherwise it returns the run's output for the recorded path and arguments, or turns the run's error into a run failure for that tool |
| ToolRegistry.ExecuteUnregistered | fixed_phrases.go:232-236 | an unregistered tool fails as not initialized, whatever running it would have done |
| ToolRegistry.ExecuteRegistered | fixed_phrases.go:242-248 | a registered tool's result is the run's output, and a run error becomes a run failure for that tool |
| ToolRegistry.CleanupTools | fixed_phrases.go:252-260 | with a directory set, cleanup forgets it and every tool and clears the initialized flag; otherwise it changes nothing |
| ToolRegistry.CleanupEmpties | fixed_phrases.go:252-260 | cleanup of a valid registry always ends in the empty registry, and a second cleanup does nothing |
| ToolRegistry.Startup | fixed_phrases.go:56-59 | the initialiser registers at most busybox and jq; it leaves the registry initialized exactly when one of its two directory creations succeeded; and the registry it leaves is valid |
| ToolRegistry.StartupRegistersBoth | fixed_phrases.go:56-59 | when the initialiser's setups succeed, busybox and jq are both available in the one directory created by the first setup |

## Left out

- The XML tokenizer (`xml.Decoder`) is left out. Its output, a sequence of tokens or a syntax error, is the input of the model.
- The encoder's byte rendering is left out: escaping, the tab indentation set by `Indent`, and `Flush`. It is the parameter `render`. Only the encoder's refusal of a start tag without a name is modelled.
- JSON encoding (`MarshalIndent`) is left out. XML to JSON yields the `Document` value that Go would encode.
- JSON decoding is left out. JSON to XML starts from the decoder's result: a document or an error. JSON values other than strings and objects are one `Opaque` value, which `mapToXML` skips as Go's type switch does.
- Go's map iteration order is the parameter `order`, as described above.
- File system and process calls are left out. These are `MkdirTemp`, `Asset`, `WriteFile`, `RemoveAll` and the command run. Their answers are parameters (`SetupWorld`, `run`).
- The signal handler installed by `setupCleanupHandler` is left out, because it is concurrency.
- Debug logging and printing are left out, including the message printed by `CleanupTools`.
- `main.go` and `args.go` are not part of this model. `main.go` converts XML with the external `goxml2json` package (`xj.Convert`) and calls neither `XmlJsonConverter` nor `ParseArgs`; `args.go` is argument parsing. No file of the repository calls `XmlJsonConverter`.
- `exportSourceCode`, `ShowHelp`, `ShowVersion`, `GetCurrentDir` and `fileExists` are not part of this model. They are I/O only.
- `Converter.XmlJsonConverter` uses the push-always builder where the Go code has the rule as written (see Findings). `TreeBuilder.ConvertXmlToJson` takes the rule as a parameter, so both are modelled.
- `FilePaths.Join` does not apply the lexical cleaning (`filepath.Clean`) that Go's `Join` performs afterwards. For a directory `d` that does not clean to "/" or "." and a plain element (no separator, neither "." nor ".."), Go's result is `d` cleaned, then a separator and the element; `Join("/", "x")` is "/x" and `Join("./", "x")` is "x". Cleaning matters in these cases, none of which the model follows:
  - a base name "." gives `d`, and ".." gives the parent of `d`;
  - a base name "/", which `Base` returns for a path made only of separators, gives `d`;
  - a directory from `MkdirTemp` that is not already clean is rewritten. `MkdirTemp` joins `TMPDIR` and the new name with a plain separator, so a relative `TMPDIR` such as "tmp" or "../tmp" stays as it is; a `TMPDIR` holding "//", "./" or ".." after a name does not.
- `ToolRegistry.SetupPreservesValid`: its claim that every tool path lies inside the temporary directory holds for the uncleaned join. In Go it also needs a clean directory and a plain base name. The two embedded assets, "resources/busybox64u.exe" and "resources/jq.exe", have the plain base names "busybox64u.exe" and "jq.exe".
- `ToolRegistry.Startup`: its validity claim rests on `SetupPreservesValid`, with the same proviso.
- `FilePaths.Base` and `FilePaths.Ext` treat '/' as the only separator and have no volume names, as on Unix.
- `BuildInfo.Shorten` counts characters where Go's `len` and slicing count bytes. The two agree for the ASCII hashes that version control records.
- `Text.TrimSpace` works on characters. `bytes.TrimSpace` decodes UTF-8 first, and invalid byte sequences are not modelled.
- `RoundTrip.EmitThenBuild` covers trees whose strings are trimmed, non-empty `#text` values. Attribute strings are not written back by `mapToXML`, so trees holding them cannot round-trip. What such a tree emits is stated by `EmitterFacts.JsonToXmlSkeleton` instead: exactly what its skeleton emits.

## Findings

| source | as written | input that shows it | evidently intended | confidence | as-written member | corrected member |
|---|---|---|---|---|---|---|
| xml.go:109-117 | the parent map is pushed only when the current map is already non-empty, so an element opened inside an empty map is never popped back out of | `<r><a/><b/></r>` converts to {r:{a:{b:{}}}}: `b` lands inside `a` | push the parent on every start element, so that each end element returns to it; JSON to XML and back then gives the tree it started from | not executed | RoundTrip.AsWrittenLosesNesting | RoundTrip.EmitThenBuild |

=== FILE: build_info.dfy ===
/**
 * The version string: the revision derived from the build settings Go
 * records in the binary (`debug.ReadBuildInfo`), and `GetVersion`.
 * Lengths are counted in characters; Go counts bytes, which agrees for the
 * ASCII hashes version control writes there.
 */
module BuildInfo {
  import opened Results
  import opened FilePaths

  datatype Setting = Setting(key: string, value: string)

  const RevisionKey: string := "vcs.revision"
  const ModifiedKey: string := "vcs.modified"
  const ShortRevisionLength: nat := 7
  const DevelopPrefix: string := "develop+"

  /** The value of the last setting with key `key`, if any. */
  function LastValue(settings: seq<Setting>, key: string): Option<string>
  {
    if settings == [] then None
    else if settings[|settings| - 1].key == key then Some(settings[|settings| - 1].value)
    else LastValue(settings[..|settings| - 1], key)
  }

  /** A revision longer than seven characters is cut to its first seven. */
  function Shorten(value: string): (r: string)
    ensures |value| <= ShortRevisionLength ==> r == value
    ensures |value| > ShortRevisionLength ==> |r| == ShortRevisionLength && r == value[..ShortRevisionLength]
  {
    if |value| > ShortRevisionLength then value[..ShortRevisionLength] else value
  }

  /**
   * The revision the settings describe: the last `vcs.revision` value,
   * shortened, prefixed with "develop+" exactly when the last `vcs.modified`
   * value is "true". No build information means no settings.
   */
  function ExpectedRevision(info: Option<seq<Setting>>): string
  {
    var settings := if info.Some? then info.value else [];
    var revision := match LastValue(settings, RevisionKey) case Some(v) => Shorten(v) case None => "";
    if LastValue(settings, ModifiedKey) == Some("true") then DevelopPrefix + revision else revision
  }

  /** The initialiser of the `revision` variable: one pass over the settings. */
  method ComputeRevision(info: Option<seq<Setting>>) returns (revision: string)
    ensures revision == ExpectedRevision(info)
  {
    revision := "";
    var modified := false;
    if info.Some? {
      var settings := info.value;
      var i := 0;
      while i < |settings|
        invariant 0 <= i <= |settings|
        invariant revision == match LastValue(settings[..i], RevisionKey) case Some(v) => Shorten(v) case None => ""
        invariant modified <==> LastValue(settings[..i], ModifiedKey) == Some("true")
      {
        var setting := settings[i];
        assert settings[..i + 1][..i] == settings[..i];
        if setting.key == RevisionKey {
          revision := setting.value;
          if |setting.value| > ShortRevisionLength {
            revision := setting.value[..ShortRevisionLength];
          }
        }
        if setting.key == ModifiedKey {
          modified := setting.value == "true";
        }
        i := i + 1;
      }
      assert settings[..i] == settings;
    }
    if modified {
      revision := DevelopPrefix + revision;
    }
  }

  /**
   * `GetVersion`: "<program> version <version>", followed by "." and the
   * revision only when there is a revision.
   */
  function GetVersion(program: string, version: string, revision: string): (r: string)
    ensures var head := FileNameWithoutExt(program) + " version " + version;
      && |head| <= |r| && r[..|head|] == head
      && (revision == "" <==> r == head)
      && (revision != "" ==> r[|head|..] == "." + revision)
  {
    if |revision| == 0 then FileNameWithoutExt(program) + " version " + version
    else FileNameWithoutExt(program) + " version " + version + "." + revision
  }

  /**
   * Neither a missing revision nor a present one leaves a trailing '.'
   * unless the version or revision itself ends in one.
   */
  lemma NoTrailingDot(program: string, version: string, revision: string)
    requires version == "" || version[|version| - 1] != '.'
    requires revision == "" || revision[|revision| - 1] != '.'
    ensures var r := GetVersion(program, version, revision); r[|r| - 1] != '.'
  {
  }
}

=== FILE: builder.dfy ===
/**
 * The XML-to-JSON tree builder (`convertXMLToJSON` in xml.go): a left fold
 * over the token stream that keeps a current map, a stack of parent maps and
 * a key stack. Go's current map is an aliased pointer into the tree; here it
 * is the key path from the root, and each stacked map is its path too. The
 * invariant `Inv` shows why that is sound: a stacked path followed by its
 * key-stack entry is always a prefix of the next stacked path and of the
 * current path, so no later write (which only touches children of the
 * current map) can replace or detach a stacked map.
 *
 * The push rule is a parameter: `AsWritten` pushes only when the current
 * map is non-empty, as the source does; `AlwaysPush` pushes on every start
 * element (see the round-trip module for why the two differ).
 */
module TreeBuilder {
  import opened Results
  import opened Text
  import opened JsonTree
  import opened XmlTokens

  datatype PushPolicy = AsWritten | AlwaysPush

  datatype State = State(
    root: Tree,
    cur: seq<string>,
    stack: seq<seq<string>>,
    keyStack: seq<string>,
    declarations: seq<string>,
    doctype: string)

  const Initial: State := State(map[], [], [], [], [], "")

  /** The path representation is faithful to the pointer one (see the module comment). */
  predicate Inv(s: State)
  {
    && |s.stack| == |s.keyStack|
    && Resolves(s.root, s.cur)
    && (forall i :: 0 <= i < |s.stack| ==> IsPrefix(s.stack[i] + [s.keyStack[i]], s.cur))
    && (forall i, j :: 0 <= i < j < |s.stack| ==> IsPrefix(s.stack[i] + [s.keyStack[i]], s.stack[j]))
  }

  /** Go's `currentMap`. */
  function Current(s: State): Tree
  {
    match Lookup(s.root, s.cur)
    case Some(m) => m
    case None => map[]
  }

  /** The attribute with index `i` is the last one with its local name. */
  predicate LastOfItsName(attrs: seq<Attr>, i: int)
    requires 0 <= i < |attrs|
  {
    forall j :: i < j < |attrs| ==> attrs[j].name.local != attrs[i].name.local
  }

  /**
   * The map a start element begins with: each attribute's value as a string
   * under its local name (prefix dropped), a later attribute overwriting an
   * earlier one of the same local name.
   */
  function AttrMap(attrs: seq<Attr>): (m: Tree)
    ensures m.Keys == set i | 0 <= i < |attrs| :: attrs[i].name.local
    decreases |attrs|
  {
    if attrs == [] then map[]
    else
      var init := attrs[..|attrs| - 1];
      var last := attrs[|attrs| - 1];
      var m := AttrMap(init);
      assert forall i :: 0 <= i < |init| ==> init[i] == attrs[i];
      assert (set i | 0 <= i < |attrs| :: attrs[i].name.local)
          == (set i | 0 <= i < |init| :: init[i].name.local) + {last.name.local};
      m[last.name.local := Str(last.value)]
  }

  /** Of several attributes with one local name, the last one's value is kept. */
  lemma {:induction false} AttrMapLastWins(attrs: seq<Attr>, i: int)
    requires 0 <= i < |attrs| && LastOfItsName(attrs, i)
    ensures AttrMap(attrs)[attrs[i].name.local] == Str(attrs[i].value)
    decreases |attrs|
  {
    var init := attrs[..|attrs| - 1];
    if i < |attrs| - 1 {
      assert init[i] == attrs[i];
      assert LastOfItsName(init, i) by {
        forall j | i < j < |init| ensures init[j].name.local != init[i].name.local {
          assert init[j] == attrs[j];
        }
      }
      AttrMapLastWins(init, i);
    }
  }

  /** The text recorded for a processing instruction. */
  function Declaration(target: string, inst: string): string
  {
    "<?" + target + " " + inst + "?>"
  }

  predicate IsDoctype(d: string)
  {
    HasPrefix(d, "DOCTYPE")
  }

  /** One iteration of the token loop. */
  function Step(policy: PushPolicy, s: State, tok: Token): (r: State)
    requires Inv(s)
    ensures Inv(r)
  {
    match tok
    case ProcInst(target, inst) => s.(declarations := s.declarations + [Declaration(target, inst)])
    case Directive(d) => if IsDoctype(d) then s.(doctype := "<!" + d + ">") else s
    case StartElement(n, attrs) =>
      var push := policy == AlwaysPush || |Current(s)| != 0;
      var root := Put(s.root, s.cur, n.local, Node(AttrMap(attrs)));
      LookupSnoc(root, s.cur, n.local);
      if push then
        s.(root := root, cur := s.cur + [n.local], stack := s.stack + [s.cur], keyStack := s.keyStack + [n.local])
      else
        s.(root := root, cur := s.cur + [n.local])
    case EndElement(_) =>
      if |s.stack| > 0 then
        var top := |s.stack| - 1;
        ResolvesPrefix(s.root, s.cur, s.stack[top]);
        s.(cur := s.stack[top], stack := s.stack[..top], keyStack := s.keyStack[..top])
      else s
    case CharData(t) =>
      var content := TrimSpace(t);
      if |content| > 0 then s.(root := Put(s.root, s.cur, TextKey, Str(content))) else s
    case Comment(_) => s
  }

  /** The token loop over a stream the tokenizer delivered without error. */
  function Run(policy: PushPolicy, s: State, toks: seq<Token>): (r: State)
    requires Inv(s)
    ensures Inv(r)
    decreases |toks|
  {
    if toks == [] then s else Run(policy, Step(policy, s, toks[0]), toks[1..])
  }

  /** The tokens the tokenizer delivered before its first error. */
  function TokensBeforeError(lexed: seq<Lexed>): seq<Token>
  {
    if lexed == [] || lexed[0].SyntaxError? then [] else [lexed[0].token] + TokensBeforeError(lexed[1..])
  }

  /**
   * The token loop over the tokenizer's output: a syntax error anywhere ends
   * the conversion with an error and no document; otherwise the document is
   * what the loop built from the whole stream.
   */
  function ConvertFrom(policy: PushPolicy, s: State, lexed: seq<Lexed>): (r: Result<Document, string>)
    requires Inv(s)
    ensures r.Failure? <==> exists i :: 0 <= i < |lexed| && lexed[i].SyntaxError?
    ensures r.Success? ==>
      var e := Run(policy, s, TokensBeforeError(lexed));
      r.value == Document(e.declarations, e.doctype, e.root)
    decreases |lexed|
  {
    if lexed == [] then Success(Document(s.declarations, s.doctype, s.root))
    else match lexed[0]
      case SyntaxError(e) => Failure(e)
      case Tok(t) =>
        assert forall i :: 1 <= i < |lexed| ==> lexed[i] == lexed[1..][i - 1];
        assert forall i :: 0 <= i < |lexed| - 1 ==> lexed[1..][i] == lexed[i + 1];
        assert ([t] + TokensBeforeError(lexed[1..]))[1..] == TokensBeforeError(lexed[1..]);
        ConvertFrom(policy, Step(policy, s, t), lexed[1..])
  }

  /** `convertXMLToJSON`, up to the JSON encoding of the resulting struct. */
  function ConvertXmlToJson(policy: PushPolicy, lexed: seq<Lexed>): (r: Result<Document, string>)
    ensures r.Failure? <==> exists i :: 0 <= i < |lexed| && lexed[i].SyntaxError?
    ensures r.Success? ==>
      && (forall i :: 0 <= i < |lexed| ==> lexed[i].Tok?)
      && var e := Run(policy, Initial, TokensBeforeError(lexed));
         r.value == Document(e.declarations, e.doctype, e.root)
  {
    ConvertFrom(policy, Initial, lexed)
  }
}

=== FILE: builder_facts.dfy ===
/**
 * What the tree builder's token loop guarantees, one token kind at a time
 * and over whole streams.
 */
module BuilderFacts {
  import opened Results
  import opened Text
  import opened JsonTree
  import opened XmlTokens
  import opened TreeBuilder

  /** Running a concatenation is running its parts one after the other. */
  lemma {:induction false} RunAppend(policy: PushPolicy, s: State, a: seq<Token>, b: seq<Token>)
    requires Inv(s)
    ensures Run(policy, s, a + b) == Run(policy, Run(policy, s, a), b)
    decreases |a|
  {
    if a == [] {
      assert a + b == b;
    } else {
      assert (a + b)[0] == a[0] && (a + b)[1..] == a[1..] + b;
      RunAppend(policy, Step(policy, s, a[0]), a[1..], b);
    }
  }

  /** The declaration one token contributes: one for a processing instruction, none otherwise. */
  function DeclarationOf(t: Token): seq<string>
  {
    if t.ProcInst? then [Declaration(t.target, t.inst)] else []
  }

  /** The declarations a stream contributes, in order. */
  function DeclarationsIn(toks: seq<Token>): seq<string>
  {
    if toks == [] then [] else DeclarationOf(toks[0]) + DeclarationsIn(toks[1..])
  }

  /**
   * Every processing instruction, at any depth, is appended to the
   * declaration list in the order it is met; no other token touches the list.
   */
  lemma {:induction false} RunDeclarations(policy: PushPolicy, s: State, toks: seq<Token>)
    requires Inv(s)
    ensures Run(policy, s, toks).declarations == s.declarations + DeclarationsIn(toks)
    decreases |toks|
  {
    if toks != [] {
      RunDeclarations(policy, Step(policy, s, toks[0]), toks[1..]);
      DeclarationsAfterStep(policy, s, toks);
    }
  }

  lemma DeclarationsAfterStep(policy: PushPolicy, s: State, toks: seq<Token>)
    requires Inv(s) && toks != []
    requires var s' := Step(policy, s, toks[0]);
      Run(policy, s', toks[1..]).declarations == s'.declarations + DeclarationsIn(toks[1..])
    ensures Run(policy, s, toks).declarations == s.declarations + DeclarationsIn(toks)
  {
    var s' := Step(policy, s, toks[0]);
    StepDeclarations(policy, s, toks[0]);
    assert Run(policy, s, toks) == Run(policy, s', toks[1..]);
    Associate(s.declarations, DeclarationOf(toks[0]), DeclarationsIn(toks[1..]));
  }

  /**
   * Sequence concatenation is associative. Stated once here so the step
   * above gets the one instance it needs without unfolding `Run` alongside.
   */
  lemma Associate<T>(a: seq<T>, b: seq<T>, c: seq<T>)
    ensures (a + b) + c == a + (b + c)
  {
  }

  lemma StepDeclarations(policy: PushPolicy, s: State, t: Token)
    requires Inv(s)
    ensures Step(policy, s, t).declarations == s.declarations + DeclarationOf(t)
  {
  }

  /** The DOCTYPE a stream leaves behind: the last DOCTYPE directive, wrapped, else `d`. */
  function LastDoctype(toks: seq<Token>, d: string): string
  {
    if toks == [] then d
    else
      var t := toks[|toks| - 1];
      if t.Directive? && IsDoctype(t.text) then "<!" + t.text + ">"
      else LastDoctype(toks[..|toks| - 1], d)
  }

  /**
   * Only directives that start with "DOCTYPE" are recorded, and the last one
   * wins; other directives and every other token leave the DOCTYPE alone.
   */
  lemma {:induction false} RunDoctype(policy: PushPolicy, s: State, toks: seq<Token>)
    requires Inv(s)
    ensures Run(policy, s, toks).doctype == LastDoctype(toks, s.doctype)
    decreases |toks|
  {
    if toks != [] {
      var init := toks[..|toks| - 1];
      var last := toks[|toks| - 1];
      assert toks == init + [last];
      RunAppend(policy, s, init, [last]);
      RunDoctype(policy, s, init);
    }
  }

  /**
   * A start element stores a new map (its attributes) under its local name
   * in the current map, replacing any sibling of that name, and descends into
   * it; the parent is pushed, with the name on the key stack, exactly when
   * the push rule fires (as written: when the current map is non-empty).
   * No map outside the path to the current map and the new entry changes,
   * and the maps on that path keep all their other entries.
   */
  lemma StartElementStep(policy: PushPolicy, s: State, n: Name, attrs: seq<Attr>)
    requires Inv(s)
    ensures var r := Step(policy, s, StartElement(n, attrs));
      && r.cur == s.cur + [n.local]
      && Lookup(r.root, r.cur) == Some(AttrMap(attrs))
      && Lookup(r.root, s.cur) == Some(Current(s)[n.local := Node(AttrMap(attrs))])
      && (if policy == AlwaysPush || |Current(s)| != 0
          then r.stack == s.stack + [s.cur] && r.keyStack == s.keyStack + [n.local]
          else r.stack == s.stack && r.keyStack == s.keyStack)
      && r.declarations == s.declarations && r.doctype == s.doctype
      && (forall q :: !IsPrefix(q, s.cur) && !IsPrefix(s.cur + [n.local], q) ==> Lookup(r.root, q) == Lookup(s.root, q))
      && (forall i :: 0 <= i < |s.cur| ==> AncestorKept(s.root, r.root, s.cur, i))
  {
    var root := Put(s.root, s.cur, n.local, Node(AttrMap(attrs)));
    LookupSnoc(root, s.cur, n.local);
    forall i | 0 <= i < |s.cur| ensures AncestorKept(s.root, root, s.cur, i) {
      PutAncestors(s.root, s.cur, n.local, Node(AttrMap(attrs)), i);
    }
    forall q | !IsPrefix(q, s.cur) && !IsPrefix(s.cur + [n.local], q) ensures Lookup(root, q) == Lookup(s.root, q) {
      PutFrame(s.root, s.cur, n.local, Node(AttrMap(attrs)), q);
    }
  }

  /**
   * An end element pops only when the stack is non-empty, and then returns
   * to the map on top of the stack, which lies strictly above the current
   * one: the popped path followed by the popped key is a prefix of the path
   * being left. The tree, declarations and DOCTYPE are untouched.
   */
  lemma EndElementStep(policy: PushPolicy, s: State, n: Name)
    requires Inv(s)
    ensures var r := Step(policy, s, EndElement(n));
      && r.root == s.root
      && (if |s.stack| > 0
          then
            && |r.stack| == |s.stack| - 1 && r.stack == s.stack[..|r.stack|]
            && r.keyStack == s.keyStack[..|r.stack|]
            && r.cur == s.stack[|s.stack| - 1]
            && IsPrefix(r.cur + [s.keyStack[|r.stack|]], s.cur)
            && r.declarations == s.declarations && r.doctype == s.doctype
          else r == s)
  {
  }

  /**
   * Character data is trimmed; a run of white space changes nothing, any
   * other run becomes the `#text` entry of the current map, replacing an
   * earlier one; no map outside the path to the current map changes, and
   * the maps above it keep all their other entries.
   */
  lemma CharDataStep(policy: PushPolicy, s: State, t: string)
    requires Inv(s)
    ensures var r := Step(policy, s, CharData(t));
      && (AllSpace(t) ==> r == s)
      && (!AllSpace(t) ==>
            && Lookup(r.root, s.cur) == Some(Current(s)[TextKey := Str(TrimSpace(t))])
            && r.cur == s.cur && r.stack == s.stack && r.keyStack == s.keyStack
            && r.declarations == s.declarations && r.doctype == s.doctype
            && (forall q :: !IsPrefix(q, s.cur) && !IsPrefix(s.cur + [TextKey], q) ==> Lookup(r.root, q) == Lookup(s.root, q))
            && (forall i :: 0 <= i < |s.cur| ==> AncestorKept(s.root, r.root, s.cur, i)))
  {
    TrimSpaceEmptyIff(t);
    forall i | 0 <= i < |s.cur| ensures AncestorKept(s.root, Put(s.root, s.cur, TextKey, Str(TrimSpace(t))), s.cur, i) {
      PutAncestors(s.root, s.cur, TextKey, Str(TrimSpace(t)), i);
    }
    forall q | !IsPrefix(q, s.cur) && !IsPrefix(s.cur + [TextKey], q)
      ensures Lookup(Put(s.root, s.cur, TextKey, Str(TrimSpace(t))), q) == Lookup(s.root, q)
    {
      PutFrame(s.root, s.cur, TextKey, Str(TrimSpace(t)), q);
    }
  }

  /** Comments and directives other than DOCTYPE leave the state unchanged. */
  lemma IgnoredTokens(policy: PushPolicy, s: State, tok: Token)
    requires Inv(s)
    requires tok.Comment? || (tok.Directive? && !IsDoctype(tok.text))
    ensures Step(policy, s, tok) == s
  {
  }

  /** Nothing before index `i` is an error. */
  predicate FirstError(lexed: seq<Lexed>, i: int)
    requires 0 <= i <= |lexed|
  {
    forall j :: 0 <= j < i ==> lexed[j].Tok?
  }

  /**
   * Of several tokenizer errors, the first one is the one reported: the loop
   * stops there, so nothing after it is read.
   */
  lemma {:induction false} FirstErrorReported(policy: PushPolicy, s: State, lexed: seq<Lexed>, i: int)
    requires Inv(s)
    requires 0 <= i < |lexed| && lexed[i].SyntaxError? && FirstError(lexed, i)
    ensures ConvertFrom(policy, s, lexed) == Failure(lexed[i].message)
    decreases |lexed|
  {
    if i > 0 {
      assert lexed[0].Tok?;
      assert forall j :: 0 <= j < i - 1 ==> lexed[1..][j] == lexed[j + 1];
      FirstErrorReported(policy, Step(policy, s, lexed[0].token), lexed[1..], i - 1);
    }
  }
}

=== FILE: converter.dfy ===
/**
 * `XmlJsonConverter`: the direction switch. The reader it is given is seen
 * here through what each direction's decoder would make of it: the XML
 * tokenizer's output and the JSON decoder's result. Go panics on a
 * conversion error; here the panic is the `Failure` result.
 */
module Converter {
  import opened Results
  import opened JsonTree
  import opened XmlTokens
  import opened TreeBuilder
  import opened BuilderFacts
  import opened TreeEmitter
  import opened EmitterFacts

  datatype Output = JsonOut(doc: Document) | XmlOut(text: string)

  datatype ConversionError =
    | XmlToJsonFailed(message: string)   // the tokenizer reported a syntax error
    | JsonDecodeFailed(message: string)  // the JSON decoder rejected the input
    | JsonToXmlFailed(cause: EmitError)  // a top-level value or an element name could not be encoded

  /** `convertJSONToXML`, starting from the JSON decoder's result. */
  function ConvertJsonToXml(decoded: Result<Document, string>, order: KeyOrder, render: seq<Token> -> string): (r: Result<string, ConversionError>)
    ensures decoded.Failure? ==> r == Failure(JsonDecodeFailed(decoded.error))
    ensures r.Success? ==> decoded.Success? && JsonToXml(decoded.value, order, render) == Success(r.value)
    ensures decoded.Success? && r.Failure? ==>
      r.error.JsonToXmlFailed? && JsonToXml(decoded.value, order, render) == Failure(r.error.cause)
  {
    match decoded
    case Failure(e) => Failure(JsonDecodeFailed(e))
    case Success(doc) =>
      match JsonToXml(doc, order, render)
      case Failure(e) => Failure(JsonToXmlFailed(e))
      case Success(text) => Success(text)
  }

  /**
   * The direction switch. XML is converted with the push-always builder
   * (the as-written push rule loses nesting; see the round-trip module).
   */
  function XmlJsonConverter(toJsonFromXml: bool, asXml: seq<Lexed>, asJson: Result<Document, string>,
                            order: KeyOrder, render: seq<Token> -> string): (r: Result<Output, ConversionError>)
    ensures r.Success? ==> (toJsonFromXml <==> r.value.JsonOut?)
    ensures r.Failure? ==> (toJsonFromXml <==> r.error.XmlToJsonFailed?)
    ensures toJsonFromXml && r.Success? ==>
      r.value.JsonOut? && ConvertXmlToJson(AlwaysPush, asXml) == Success(r.value.doc)
    ensures toJsonFromXml && r.Failure? ==>
      r.error.XmlToJsonFailed? && ConvertXmlToJson(AlwaysPush, asXml) == Failure(r.error.message)
    ensures !toJsonFromXml && r.Success? ==>
      r.value.XmlOut? && asJson.Success? && JsonToXml(asJson.value, order, render) == Success(r.value.text)
    ensures !toJsonFromXml && r.Failure? ==> ConvertJsonToXml(asJson, order, render) == Failure(r.error)
  {
    if toJsonFromXml then
      match ConvertXmlToJson(AlwaysPush, asXml)
      case Failure(e) => Failure(XmlToJsonFailed(e))
      case Success(doc) => Success(JsonOut(doc))
    else
      match ConvertJsonToXml(asJson, order, render)
      case Failure(e) => Failure(e)
      case Success(text) => Success(XmlOut(text))
  }

  /**
   * When the converter fails: XML to JSON exactly when the tokenizer reports
   * an error; JSON to XML exactly when decoding fails, a top-level value is
   * not a map, or an element name is empty.
   */
  lemma ConverterFails(toJsonFromXml: bool, asXml: seq<Lexed>, asJson: Result<Document, string>,
                       order: KeyOrder, render: seq<Token> -> string)
    requires asJson.Success? ==> Enumerates(order([]), asJson.value.data)
    requires asJson.Success? ==> forall k :: k in asJson.value.data ==> ValidOrder(order, [k], asJson.value.data[k])
    ensures XmlJsonConverter(toJsonFromXml, asXml, asJson, order, render).Failure? <==>
      if toJsonFromXml then exists i :: 0 <= i < |asXml| && asXml[i].SyntaxError?
      else asJson.Failure? || exists k :: k in asJson.value.data && BadTopLevel(asJson.value.data, k)
  {
    if asJson.Success? {
      JsonToXmlOutcome(asJson.value, order, render);
    }
  }
}

=== FILE: emitter.dfy ===
/**
 * The JSON-to-XML direction: `mapToXML` (a recursive walk that emits
 * tokens for a map) and `convertJSONToXML` (header lines, one element per
 * top-level key, trimmed buffer).
 *
 * Go visits map entries in an unspecified order. The walk therefore takes
 * `order`, which gives for the map at each key path the sequence in which
 * `range` visits its keys; `ValidOrder` says it visits every key once.
 * The encoder is represented by its only error this walk can trigger (a
 * start tag with an empty name) and by `render`, the text it writes for a
 * token sequence.
 */
module TreeEmitter {
  import opened Results
  import opened Text
  import opened JsonTree
  import opened XmlTokens

  type KeyOrder = seq<string> -> seq<string>

  /** No key occurs twice in `keys`. */
  predicate Distinct(keys: seq<string>)
  {
    forall i, j :: 0 <= i < j < |keys| ==> keys[i] != keys[j]
  }

  /** `keys` lists the keys of `m`, each exactly once. */
  predicate Enumerates(keys: seq<string>, m: Tree)
  {
    && Distinct(keys)
    && (forall k :: k in m ==> k in keys)
    && (forall k :: k in keys ==> k in m)
  }

  /** At every map reachable from `v` (at path `path`), `order` visits each key once. */
  predicate ValidOrder(order: KeyOrder, path: seq<string>, v: Value)
    decreases v
  {
    v.Node? ==>
      && Enumerates(order(path), v.children)
      && forall k :: k in v.children ==> ValidOrder(order, path + [k], v.children[k])
  }

  /** The element name the emitter gives a key: a local name without namespace. */
  function ElementName(key: string): Name
  {
    Name("", key)
  }

  /**
   * `mapToXML`: the start token for `name`, then the tokens of each entry in
   * visiting order. The matching end token is the caller's.
   */
  function MapToXml(order: KeyOrder, path: seq<string>, name: string, v: Value): (r: seq<Token>)
    requires v.Node?
    ensures |r| >= 1 && r[0] == StartElement(ElementName(name), [])
    decreases v, 1
  {
    [StartElement(ElementName(name), [])] + Entries(order, path, v, order(path))
  }

  function Entries(order: KeyOrder, path: seq<string>, v: Value, keys: seq<string>): seq<Token>
    requires v.Node?
    decreases v, 0, |keys|
  {
    if keys == [] then [] else EntryTokens(order, path, v, keys[0]) + Entries(order, path, v, keys[1..])
  }

  /**
   * One entry: character data for a string under `#text`, a start ... end
   * block for a nested map, and nothing for any other string (an
   * attribute) or any other kind of value.
   */
  function EntryTokens(order: KeyOrder, path: seq<string>, v: Value, k: string): seq<Token>
    requires v.Node?
    decreases v, 0, 0
  {
    if k !in v.children then []
    else match v.children[k]
      case Str(t) => if k == TextKey then [CharData(t)] else []
      case Node(_) => MapToXml(order, path + [k], k, v.children[k]) + [EndElement(ElementName(k))]
      case Opaque => []
  }

  /** Once the caller adds the closing token, the tokens for a map are balanced. */
  lemma {:induction false} MapToXmlNests(order: KeyOrder, path: seq<string>, name: string, v: Value, open: seq<Name>)
    requires v.Node?
    ensures Nest(MapToXml(order, path, name, v) + [EndElement(ElementName(name))], open) == Some(open)
    decreases v, 1
  {
    var n := ElementName(name);
    var e := Entries(order, path, v, order(path));
    assert MapToXml(order, path, name, v) + [EndElement(n)] == [StartElement(n, [])] + (e + [EndElement(n)]);
    NestAppend([StartElement(n, [])], e + [EndElement(n)], open);
    assert Nest([StartElement(n, [])], open) == Some(open + [n]);
    NestAppend(e, [EndElement(n)], open + [n]);
    EntriesNest(order, path, v, order(path), open + [n]);
    assert (open + [n])[..|open|] == open;
  }

  lemma {:induction false} EntriesNest(order: KeyOrder, path: seq<string>, v: Value, keys: seq<string>, open: seq<Name>)
    requires v.Node?
    ensures Nest(Entries(order, path, v, keys), open) == Some(open)
    decreases v, 0, |keys|
  {
    if keys != [] {
      NestAppend(EntryTokens(order, path, v, keys[0]), Entries(order, path, v, keys[1..]), open);
      EntryNest(order, path, v, keys[0], open);
      EntriesNest(order, path, v, keys[1..], open);
    }
  }

  lemma {:induction false} EntryNest(order: KeyOrder, path: seq<string>, v: Value, k: string, open: seq<Name>)
    requires v.Node?
    ensures Nest(EntryTokens(order, path, v, k), open) == Some(open)
    decreases v, 0, 0
  {
    if k in v.children && v.children[k].Node? {
      MapToXmlNests(order, path + [k], k, v.children[k], open);
    }
  }

  /** Why `convertJSONToXML` produces no document. */
  datatype EmitError =
    | NotAnObject(key: string)   // a top-level value is not a map (Go's failed type assertion)
    | StartTagWithoutName        // the encoder's "start tag with no name"

  /** A start token the encoder refuses: one whose local name is empty. */
  predicate HasUnnamedStart(toks: seq<Token>)
  {
    exists i :: 0 <= i < |toks| && toks[i].StartElement? && toks[i].name.local == ""
  }

  /**
   * The loop over the top-level keys, in visiting order: a value that is not
   * a map fails before anything of it is encoded; a map is emitted as one
   * element, and fails if the encoder refuses one of its start tags.
   */
  function EmitTop(order: KeyOrder, data: Tree, keys: seq<string>): (r: Result<seq<Token>, EmitError>)
    ensures r.Success? ==> !HasUnnamedStart(r.value)
    ensures r.Failure? && r.error.NotAnObject? ==> r.error.key in data && !data[r.error.key].Node?
  {
    if keys == [] then Success([])
    else
      var k := keys[0];
      if k !in data then EmitTop(order, data, keys[1..])
      else if !data[k].Node? then Failure(NotAnObject(k))
      else
        var t := MapToXml(order, [k], k, data[k]) + [EndElement(ElementName(k))];
        if HasUnnamedStart(t) then Failure(StartTagWithoutName)
        else match EmitTop(order, data, keys[1..])
          case Failure(e) => Failure(e)
          case Success(u) =>
            assert forall i :: |t| <= i < |t + u| ==> (t + u)[i] == u[i - |t|];
            Success(t + u)
  }

  /** One line per stored declaration, in order. */
  function DeclarationLines(decls: seq<string>): string
  {
    if decls == [] then "" else decls[0] + "\n" + DeclarationLines(decls[1..])
  }

  /** The text written before the encoder's output: declarations, then the DTD if there is one. */
  function Header(doc: Document): string
  {
    DeclarationLines(doc.declarations) + (if doc.doctype != "" then doc.doctype + "\n" else "")
  }

  /**
   * `convertJSONToXML` on an already decoded document: the header, then the
   * encoder's rendering of the element tokens, the whole trimmed of white
   * space at both ends.
   */
  function JsonToXml(doc: Document, order: KeyOrder, render: seq<Token> -> string): (r: Result<string, EmitError>)
    ensures r.Success? ==> r.value == [] || (!IsSpace(r.value[0]) && !IsSpace(r.value[|r.value| - 1]))
  {
    match EmitTop(order, doc.data, order([]))
    case Failure(e) => Failure(e)
    case Success(toks) => Success(TrimSpace(Header(doc) + render(toks)))
  }
}

=== FILE: emitter_facts.dfy ===
/**
 * What the emitter guarantees: balanced output, which values produce
 * tokens at all, when the encoder refuses the output, and how the header
 * lines can be read back.
 */
module EmitterFacts {
  import opened Results
  import opened Text
  import opened JsonTree
  import opened XmlTokens
  import opened TreeEmitter

  /** The top-level loop's output, when it succeeds, is balanced. */
  lemma {:induction false} EmitTopNests(order: KeyOrder, data: Tree, keys: seq<string>)
    ensures EmitTop(order, data, keys).Success? ==> WellNested(EmitTop(order, data, keys).value)
    decreases |keys|
  {
    if keys != [] && keys[0] in data && data[keys[0]].Node? {
      var k := keys[0];
      var t := MapToXml(order, [k], k, data[k]) + [EndElement(ElementName(k))];
      var r := EmitTop(order, data, keys[1..]);
      if !HasUnnamedStart(t) && r.Success? {
        EmitTopNests(order, data, keys[1..]);
        MapToXmlNests(order, [k], k, data[k], []);
        NestAppend(t, r.value, []);
      }
    } else if keys != [] {
      EmitTopNests(order, data, keys[1..]);
    }
  }

  /** `t` is stored as the text of some map inside `v` (at any depth). */
  predicate StoresText(v: Value, t: string)
    decreases v
  {
    v.Node? &&
      ((TextKey in v.children && v.children[TextKey] == Str(t))
       || exists k :: k in v.children && StoresText(v.children[k], t))
  }

  /**
   * The only tokens the walk produces: start tokens without namespace or
   * attributes (attribute strings are not written back), end tokens, and
   * character data whose text is stored under `#text` somewhere in the tree.
   */
  predicate EmittedFrom(tok: Token, v: Value)
  {
    match tok
    case StartElement(n, attrs) => n.space == "" && attrs == []
    case EndElement(n) => n.space == ""
    case CharData(t) => StoresText(v, t)
    case _ => false
  }

  lemma {:induction false} MapToXmlTokens(order: KeyOrder, path: seq<string>, name: string, v: Value)
    requires v.Node?
    ensures forall i :: 0 <= i < |MapToXml(order, path, name, v)| ==> EmittedFrom(MapToXml(order, path, name, v)[i], v)
    decreases v, 1
  {
    EntriesTokens(order, path, v, order(path));
  }

  lemma {:induction false} EntriesTokens(order: KeyOrder, path: seq<string>, v: Value, keys: seq<string>)
    requires v.Node?
    ensures forall i :: 0 <= i < |Entries(order, path, v, keys)| ==> EmittedFrom(Entries(order, path, v, keys)[i], v)
    decreases v, 0, |keys|
  {
    if keys != [] {
      EntryTokensShape(order, path, v, keys[0]);
      EntriesTokens(order, path, v, keys[1..]);
    }
  }

  lemma {:induction false} EntryTokensShape(order: KeyOrder, path: seq<string>, v: Value, k: string)
    requires v.Node?
    ensures forall i :: 0 <= i < |EntryTokens(order, path, v, k)| ==> EmittedFrom(EntryTokens(order, path, v, k)[i], v)
    decreases v, 0, 0
  {
    if k in v.children && v.children[k].Node? {
      var c := v.children[k];
      MapToXmlTokens(order, path + [k], k, c);
      var t := MapToXml(order, path + [k], k, c);
      forall i | 0 <= i < |t| ensures EmittedFrom(t[i], v) {
        assert EmittedFrom(t[i], c);
        if t[i].CharData? {
          assert StoresText(c, t[i].text);
        }
      }
    }
  }

  /**
   * What the walk reads of a value: in every map, the `#text` string and the
   * nested maps, reduced in turn; attribute strings and values of other
   * kinds are dropped.
   */
  function Skeleton(v: Value): (r: Value)
    ensures r.Node? <==> v.Node?
    ensures !v.Node? ==> r == v
    ensures v.Node? ==> forall k :: k in r.children <==>
      k in v.children && (v.children[k].Node? || (k == TextKey && v.children[k].Str?))
    ensures v.Node? ==> forall k :: k in r.children && r.children[k].Str? ==>
      k == TextKey && r.children[k] == v.children[k]
    decreases v
  {
    match v
    case Node(c) => Node(map k | k in c && (c[k].Node? || (k == TextKey && c[k].Str?)) :: Skeleton(c[k]))
    case _ => v
  }

  /** Every top-level value reduced to its skeleton. */
  function SkeletonData(data: Tree): (r: Tree)
    ensures r.Keys == data.Keys
    ensures forall k :: k in r ==> (r[k].Node? <==> data[k].Node?)
  {
    map k | k in data :: Skeleton(data[k])
  }

  /**
   * The walk emits the same tokens for a map and for its skeleton, whatever
   * the visiting order: attribute strings and values of other kinds leave
   * no trace in the output.
   */
  lemma {:induction false} MapToXmlSkeleton(order: KeyOrder, path: seq<string>, name: string, v: Value)
    requires v.Node?
    ensures MapToXml(order, path, name, v) == MapToXml(order, path, name, Skeleton(v))
    decreases v, 1
  {
    EntriesSkeleton(order, path, v, order(path));
  }

  lemma {:induction false} EntriesSkeleton(order: KeyOrder, path: seq<string>, v: Value, keys: seq<string>)
    requires v.Node?
    ensures Entries(order, path, v, keys) == Entries(order, path, Skeleton(v), keys)
    decreases v, 0, |keys|
  {
    if keys != [] {
      EntrySkeleton(order, path, v, keys[0]);
      EntriesSkeleton(order, path, v, keys[1..]);
    }
  }

  lemma {:induction false} EntrySkeleton(order: KeyOrder, path: seq<string>, v: Value, k: string)
    requires v.Node?
    ensures EntryTokens(order, path, v, k) == EntryTokens(order, path, Skeleton(v), k)
    decreases v, 0, 0
  {
    var s := Skeleton(v);
    if k in v.children && v.children[k].Node? {
      assert s.children[k] == Skeleton(v.children[k]);
      MapToXmlSkeleton(order, path + [k], k, v.children[k]);
    }
  }

  /** The top-level loop gives the same outcome on a tree and on its skeleton. */
  lemma {:induction false} EmitTopSkeleton(order: KeyOrder, data: Tree, keys: seq<string>)
    ensures EmitTop(order, data, keys) == EmitTop(order, SkeletonData(data), keys)
    decreases |keys|
  {
    if keys != [] {
      var k := keys[0];
      EmitTopSkeleton(order, data, keys[1..]);
      if k in data && data[k].Node? {
        MapToXmlSkeleton(order, [k], k, data[k]);
      }
    }
  }

  /**
   * `convertJSONToXML` writes the same text for a document and for the same
   * document with every top-level value reduced to its skeleton.
   */
  lemma JsonToXmlSkeleton(doc: Document, order: KeyOrder, render: seq<Token> -> string)
    ensures JsonToXml(doc, order, render) == JsonToXml(doc.(data := SkeletonData(doc.data)), order, render)
  {
    EmitTopSkeleton(order, doc.data, order([]));
  }

  /** Some map reachable below `v` has a map-valued entry with an empty key. */
  predicate HasEmptyName(v: Value)
    decreases v
  {
    v.Node? && exists k :: k in v.children && v.children[k].Node? && (k == "" || HasEmptyName(v.children[k]))
  }

  lemma UnnamedAppend(a: seq<Token>, b: seq<Token>)
    ensures HasUnnamedStart(a + b) <==> HasUnnamedStart(a) || HasUnnamedStart(b)
  {
    if HasUnnamedStart(a + b) {
      var i :| 0 <= i < |a + b| && (a + b)[i].StartElement? && (a + b)[i].name.local == "";
      if i >= |a| {
        assert b[i - |a|] == (a + b)[i];
      }
    }
    if HasUnnamedStart(a) {
      var i :| 0 <= i < |a| && a[i].StartElement? && a[i].name.local == "";
      assert (a + b)[i] == a[i];
    }
    if HasUnnamedStart(b) {
      var i :| 0 <= i < |b| && b[i].StartElement? && b[i].name.local == "";
      assert (a + b)[|a| + i] == b[i];
    }
  }

  /**
   * Some key in `keys` names a map-valued entry of `v` whose element the
   * encoder refuses: its own name is empty, or one below it is.
   */
  predicate RefusedAmong(v: Value, keys: seq<string>)
    requires v.Node?
  {
    exists k :: k in keys && k in v.children && v.children[k].Node? && (k == "" || HasEmptyName(v.children[k]))
  }

  /**
   * The encoder refuses the tokens for an element exactly when the element's
   * own name or the name of an element below it is empty.
   */
  lemma {:induction false} MapToXmlUnnamed(order: KeyOrder, path: seq<string>, name: string, v: Value)
    requires v.Node? && ValidOrder(order, path, v)
    ensures HasUnnamedStart(MapToXml(order, path, name, v)) <==> name == "" || HasEmptyName(v)
    decreases v, 1
  {
    var e := Entries(order, path, v, order(path));
    UnnamedAppend([StartElement(ElementName(name), [])], e);
    EntriesUnnamed(order, path, v, order(path));
    assert HasUnnamedStart([StartElement(ElementName(name), [])]) <==> name == "" by {
      if name == "" {
        assert [StartElement(ElementName(name), [])][0].name.local == "";
      }
    }
    assert RefusedAmong(v, order(path)) <==> HasEmptyName(v);
  }

  lemma {:induction false} EntriesUnnamed(order: KeyOrder, path: seq<string>, v: Value, keys: seq<string>)
    requires v.Node? && ValidOrder(order, path, v)
    ensures HasUnnamedStart(Entries(order, path, v, keys)) <==> RefusedAmong(v, keys)
    decreases v, 0, |keys|
  {
    if keys == [] {
      assert !RefusedAmong(v, keys);
    } else {
      UnnamedAppend(EntryTokens(order, path, v, keys[0]), Entries(order, path, v, keys[1..]));
      EntryUnnamed(order, path, v, keys[0]);
      EntriesUnnamed(order, path, v, keys[1..]);
      assert forall k :: k in keys <==> k == keys[0] || k in keys[1..];
    }
  }

  lemma {:induction false} EntryUnnamed(order: KeyOrder, path: seq<string>, v: Value, k: string)
    requires v.Node? && ValidOrder(order, path, v)
    ensures HasUnnamedStart(EntryTokens(order, path, v, k))
        <==> k in v.children && v.children[k].Node? && (k == "" || HasEmptyName(v.children[k]))
    decreases v, 0, 0
  {
    if k in v.children && v.children[k].Node? {
      var t := MapToXml(order, path + [k], k, v.children[k]);
      MapToXmlUnnamed(order, path + [k], k, v.children[k]);
      UnnamedAppend(t, [EndElement(ElementName(k))]);
    } else if k in v.children && v.children[k].Str? {
      assert !HasUnnamedStart(EntryTokens(order, path, v, k));
    }
  }

  /** A top-level value the loop cannot convert: not a map, or a map the encoder refuses. */
  predicate BadTopLevel(data: Tree, k: string)
    requires k in data
  {
    !data[k].Node? || k == "" || HasEmptyName(data[k])
  }

  lemma {:induction false} EmitTopFails(order: KeyOrder, data: Tree, keys: seq<string>)
    requires forall k :: k in keys ==> k in data && ValidOrder(order, [k], data[k])
    ensures EmitTop(order, data, keys).Failure? <==> exists k :: k in keys && BadTopLevel(data, k)
    decreases |keys|
  {
    if keys != [] {
      var k := keys[0];
      EmitTopFails(order, data, keys[1..]);
      assert forall x :: x in keys <==> x == k || x in keys[1..];
      if data[k].Node? {
        var t := MapToXml(order, [k], k, data[k]) + [EndElement(ElementName(k))];
        MapToXmlUnnamed(order, [k], k, data[k]);
        UnnamedAppend(MapToXml(order, [k], k, data[k]), [EndElement(ElementName(k))]);
        assert !HasUnnamedStart([EndElement(ElementName(k))]);
      }
    }
  }

  /**
   * `convertJSONToXML` fails exactly when some top-level value is not a map
   * or the encoder would refuse an element name; otherwise it yields the
   * trimmed header followed by the rendering of the walk's own tokens, which
   * are balanced.
   */
  lemma JsonToXmlOutcome(doc: Document, order: KeyOrder, render: seq<Token> -> string)
    requires Enumerates(order([]), doc.data)
    requires forall k :: k in doc.data ==> ValidOrder(order, [k], doc.data[k])
    ensures JsonToXml(doc, order, render).Failure? <==> exists k :: k in doc.data && BadTopLevel(doc.data, k)
    ensures var e := EmitTop(order, doc.data, order([]));
      JsonToXml(doc, order, render).Success? ==>
        && e.Success? && WellNested(e.value)
        && JsonToXml(doc, order, render).value == TrimSpace(Header(doc) + render(e.value))
  {
    EmitTopFails(order, doc.data, order([]));
    EmitTopNests(order, doc.data, order([]));
  }

  /** Splits text into its newline-terminated lines (a final unterminated line counts too). */
  function Lines(s: string): seq<string>
    decreases |s|
  {
    if s == [] then []
    else if '\n' !in s then [s]
    else
      var i := IndexOf(s, '\n');
      [s[..i]] + Lines(s[i + 1..])
  }

  function IndexOf(s: string, c: char): (i: nat)
    requires c in s
    ensures i < |s| && s[i] == c && c !in s[..i]
  {
    if s[0] == c then 0 else
      assert c in s[1..];
      var j := IndexOf(s[1..], c);
      assert s[..j + 1] == [s[0]] + s[1..][..j];
      j + 1
  }

  lemma LinesCons(line: string, rest: string)
    requires '\n' !in line
    ensures Lines(line + "\n" + rest) == [line] + Lines(rest)
  {
    var s := line + "\n" + rest;
    assert s[|line|] == '\n';
    assert s[..|line|] == line;
    var i := IndexOf(s, '\n');
    assert i == |line|;
    assert s[i + 1..] == rest;
  }

  predicate SingleLine(s: string)
  {
    '\n' !in s
  }

  lemma FirstDeclarationLine(decls: seq<string>, rest: string)
    requires decls != [] && SingleLine(decls[0])
    ensures Lines(DeclarationLines(decls) + rest) == [decls[0]] + Lines(DeclarationLines(decls[1..]) + rest)
  {
    var y := DeclarationLines(decls[1..]) + rest;
    assert DeclarationLines(decls) + rest == decls[0] + "\n" + y;
    LinesCons(decls[0], y);
  }

  lemma {:induction false} DeclarationLinesRead(decls: seq<string>, rest: string)
    requires forall i :: 0 <= i < |decls| ==> SingleLine(decls[i])
    ensures Lines(DeclarationLines(decls) + rest) == decls + Lines(rest)
    decreases |decls|
  {
    if decls != [] {
      var tail := Lines(rest);
      assert [decls[0]] + (decls[1..] + tail) == decls + tail by {
        assert decls == [decls[0]] + decls[1..];
      }
      FirstDeclarationLine(decls, rest);
      DeclarationLinesRead(decls[1..], rest);
    } else {
      assert DeclarationLines(decls) + rest == rest;
    }
  }

  /**
   * The header is each declaration on a line of its own, in order, then the
   * DTD on a line of its own when there is one: reading its lines back gives
   * exactly those strings.
   */
  lemma HeaderLines(doc: Document)
    requires forall i :: 0 <= i < |doc.declarations| ==> SingleLine(doc.declarations[i])
    requires SingleLine(doc.doctype)
    ensures Lines(Header(doc)) == doc.declarations + (if doc.doctype != "" then [doc.doctype] else [])
  {
    var tail := if doc.doctype != "" then doc.doctype + "\n" else "";
    DeclarationLinesRead(doc.declarations, tail);
    if doc.doctype != "" {
      LinesCons(doc.doctype, "");
      assert doc.doctype + "\n" == doc.doctype + "\n" + "";
    }
  }
}

=== FILE: paths.dfy ===
/**
 * The slash-separated path helpers behind `GetFileNameWithoutExt` and the
 * tool paths: Go's `filepath.Ext`, `filepath.Base` and `filepath.Join`,
 * for '/' as the only separator.
 */
module FilePaths {

  const Separator: char := '/'

  /** `path` has no separator after index `k`. */
  predicate NoSeparatorAfter(path: string, k: int)
  {
    forall j :: k < j < |path| && 0 <= j ==> path[j] != Separator
  }

  /** Scans back from index `i` for a '.' before any separator. */
  function ExtFrom(path: string, i: int): (e: string)
    requires -1 <= i < |path|
    ensures |e| <= |path| && e == path[|path| - |e|..]
    decreases i + 1
  {
    if i < 0 || path[i] == Separator then ""
    else if path[i] == '.' then path[i..]
    else ExtFrom(path, i - 1)
  }

  /**
   * `filepath.Ext`: the suffix from the last '.' of the last path element,
   * or "" when that element has no '.'.
   */
  function Ext(path: string): (e: string)
    ensures |e| <= |path| && e == path[|path| - |e|..]
  {
    ExtFrom(path, |path| - 1)
  }

  lemma {:induction false} ExtFromSpec(path: string, i: int)
    requires -1 <= i < |path|
    requires forall j :: i < j < |path| ==> path[j] != '.' && path[j] != Separator
    ensures var e := ExtFrom(path, i);
      && (e != "" ==> e[0] == '.' && forall j :: 0 < j < |e| ==> e[j] != '.' && e[j] != Separator)
      && (e == "" ==> forall k :: 0 <= k < |path| && path[k] == '.' ==> exists j :: k < j < |path| && path[j] == Separator)
    decreases i + 1
  {
    if i < 0 {
      assert ExtFrom(path, i) == "";
    } else if path[i] == Separator {
      assert ExtFrom(path, i) == "";
      forall k | 0 <= k < |path| && path[k] == '.' ensures exists j :: k < j < |path| && path[j] == Separator {
        assert k < i;
      }
    } else if path[i] == '.' {
      var e := path[i..];
      assert ExtFrom(path, i) == e;
      forall j | 0 < j < |e| ensures e[j] != '.' && e[j] != Separator {
        assert e[j] == path[i + j];
      }
    } else {
      ExtFromSpec(path, i - 1);
    }
  }

  /**
   * The extension starts with '.' and holds no other '.' and no separator;
   * there is none exactly when every '.' of the path lies before a separator.
   */
  lemma ExtSpec(path: string)
    ensures var e := Ext(path);
      && (e != "" ==> e[0] == '.' && forall j :: 0 < j < |e| ==> e[j] != '.' && e[j] != Separator)
      && (e == "" <==> forall k :: 0 <= k < |path| && path[k] == '.' ==> exists j :: k < j < |path| && path[j] == Separator)
  {
    ExtFromSpec(path, |path| - 1);
    var e := Ext(path);
    if e != "" {
      var k := |path| - |e|;
      assert path[k] == '.';
    }
  }

  /** Drops trailing separators. */
  function TrimTrailingSeparators(path: string): (r: string)
    ensures |r| <= |path| && r == path[..|r|] && (r == "" || r[|r| - 1] != Separator)
    ensures forall j :: |r| <= j < |path| ==> path[j] == Separator
  {
    if path != "" && path[|path| - 1] == Separator then
      var r := TrimTrailingSeparators(path[..|path| - 1]);
      assert path[..|path| - 1][..|r|] == path[..|r|];
      r
    else path
  }

  /** The index just after the last separator of `path`, or 0. */
  function ElementStart(path: string): (i: nat)
    ensures i <= |path| && NoSeparatorAfter(path, i - 1)
    ensures i > 0 ==> path[i - 1] == Separator
  {
    if path == "" || path[|path| - 1] == Separator then |path|
    else ElementStart(path[..|path| - 1])
  }

  /**
   * `filepath.Base`: the last element of the path after trailing separators
   * are dropped; "." for the empty path and "/" for a path of separators.
   */
  function Base(path: string): (b: string)
    ensures b != ""
    ensures path == "" ==> b == "."
    ensures path != "" && TrimTrailingSeparators(path) == "" ==> b == [Separator]
    ensures var p := TrimTrailingSeparators(path);
      p != "" ==>
        && Separator !in b && |b| <= |p| && p[|p| - |b|..] == b
        && (|b| == |p| || p[|p| - |b| - 1] == Separator)
  {
    if path == "" then "."
    else
      var p := TrimTrailingSeparators(path);
      if p == "" then [Separator]
      else
        var i := ElementStart(p);
        assert forall j :: i <= j < |p| ==> p[j] != Separator;
        p[i..]
  }

  /**
   * `filepath.Join` of a directory and one element, without the lexical
   * cleaning Go applies afterwards.
   */
  function Join(dir: string, elem: string): (r: string)
    ensures dir != "" && elem != "" ==> r == dir + [Separator] + elem
    ensures dir == "" ==> r == elem
    ensures elem == "" ==> r == dir
  {
    if dir == "" then elem else if elem == "" then dir else dir + [Separator] + elem
  }

  /**
   * The base name of a directory joined with a plain element is that element
   * (which, being neither "." nor "..", Go's cleaning would leave in place).
   */
  lemma JoinThenBase(dir: string, elem: string)
    requires elem != "" && Separator !in elem && elem != "." && elem != ".."
    ensures Base(Join(dir, elem)) == elem
  {
    var d := if dir == "" then "" else dir + [Separator];
    var p := Join(dir, elem);
    assert p == d + elem;
    assert TrimTrailingSeparators(p) == p by {
      assert p[|p| - 1] == elem[|elem| - 1];
    }
    ElementStartAfterDir(d, elem);
    assert p[|d|..] == elem;
  }

  /**
   * `GetFileNameWithoutExt`: drops the extension, then takes the base name.
   * The result is never empty; unless it is "." or "/", it is a run of
   * non-separator characters of the path that ends before the extension.
   */
  function FileNameWithoutExt(path: string): (r: string)
    ensures r != ""
    ensures r == "." || r == [Separator] ||
      (Separator !in r && exists i :: i + |r| <= |path| - |Ext(path)| && OccursAt(path, r, i))
  {
    var stem := path[..|path| - |Ext(path)|];
    var p := TrimTrailingSeparators(stem);
    var r := Base(stem);
    if p != "" then
      var i := |p| - |r|;
      assert p == stem[..|p|] && p[i..] == r;
      assert path[i..i + |r|] == stem[i..i + |r|] == p[i..];
      assert OccursAt(path, r, i);
      r
    else r
  }

  /** `s` occurs in `path` starting at index `i`. */
  predicate OccursAt(path: string, s: string, i: int)
  {
    0 <= i && i + |s| <= |path| && path[i..i + |s|] == s
  }

  /**
   * For a file name made of a non-empty stem and an extension (a '.' and
   * no further '.', or nothing when the stem has no '.'), in any directory,
   * the result is the stem.
   */
  lemma FileNameWithoutExtOfStem(dir: string, stem: string, ext: string)
    requires dir == "" || dir[|dir| - 1] == Separator
    requires stem != "" && Separator !in stem && Separator !in ext
    requires (ext == "" && '.' !in stem) || (ext != "" && ext[0] == '.' && '.' !in ext[1..])
    ensures FileNameWithoutExt(dir + stem + ext) == stem
  {
    var path := dir + stem + ext;
    var n := |dir| + |stem|;
    assert path[..n] == dir + stem;
    assert Ext(path) == ext by {
      if ext == "" {
        ExtAtStemEnd(path, n, dir, stem);
      } else {
        assert forall j :: n < j < |path| ==> path[j] == ext[j - n];
        ExtStopsAtDot(path, n);
      }
    }
    var p := dir + stem;
    assert TrimTrailingSeparators(p) == p by {
      assert p[|p| - 1] == stem[|stem| - 1];
    }
    ElementStartAfterDir(dir, stem);
  }

  lemma ExtAtStemEnd(path: string, n: int, dir: string, stem: string)
    requires path == dir + stem && n == |path| && stem != "" && '.' !in stem && Separator !in stem
    requires dir == "" || dir[|dir| - 1] == Separator
    ensures Ext(path) == ""
  {
    ExtSpec(path);
    forall k | 0 <= k < |path| && path[k] == '.' ensures exists j :: k < j < |path| && path[j] == Separator {
      assert k < |dir|;
      assert path[|dir| - 1] == Separator;
    }
  }

  lemma {:induction false} ExtStopsAtDot(path: string, n: int)
    requires 0 <= n < |path| && path[n] == '.'
    requires forall j :: n < j < |path| ==> path[j] != '.' && path[j] != Separator
    ensures Ext(path) == path[n..]
  {
    ExtFromScan(path, |path| - 1, n);
  }

  lemma {:induction false} ExtFromScan(path: string, i: int, n: int)
    requires 0 <= n <= i < |path| && path[n] == '.'
    requires forall j :: n < j < |path| ==> path[j] != '.' && path[j] != Separator
    ensures ExtFrom(path, i) == path[n..]
    decreases i
  {
    if i > n {
      ExtFromScan(path, i - 1, n);
    }
  }

  lemma {:induction false} ElementStartAfterDir(dir: string, stem: string)
    requires dir == "" || dir[|dir| - 1] == Separator
    requires stem != "" && Separator !in stem
    ensures ElementStart(dir + stem) == |dir|
    decreases |stem|
  {
    var p := dir + stem;
    if |stem| > 1 {
      assert p[..|p| - 1] == dir + stem[..|stem| - 1];
      assert p[|p| - 1] == stem[|stem| - 1];
      ElementStartAfterDir(dir, stem[..|stem| - 1]);
    } else {
      assert p[..|p| - 1] == dir;
      assert p[|p| - 1] == stem[0];
    }
  }

  /** Only the final extension goes. */
  lemma DoubleExtensionExample()
    ensures FileNameWithoutExt("dir/a.tar.gz") == "a.tar"
  {
    assert "dir/a.tar.gz" == "dir/" + "a.tar" + ".gz";
    assert ".gz"[1..] == "gz";
    FileNameWithoutExtOfStem("dir/", "a.tar", ".gz");
  }

  /**
   * A leading-dot name is all extension, so the helper returns the
   * directory's name instead.
   */
  lemma DotFileGivesDirectory()
    ensures FileNameWithoutExt("dir/.bashrc") == "dir"
  {
    ExtStopsAtDot("dir/.bashrc", 4);
    assert "dir/.bashrc"[..4] == "dir/";
    assert TrimTrailingSeparators("dir/") == "dir";
    ElementStartAfterDir("", "dir");
  }
}

=== FILE: results.dfy ===
/** Failure-carrying wrappers shared by every module of the model. */
module Results {

  /** A value that may be absent: a Go `(value, ok)` pair or a nil map lookup. */
  datatype Option<+T> = None | Some(value: T)

  /** Either a value or the error a Go function returns beside it. */
  datatype Result<+T, +E> = Success(value: T) | Failure(error: E)
}

=== FILE: roundtrip.dfy ===
/**
 * Emitting a tree and building it back. With a builder that pushes the
 * parent on every start element, the tree comes back unchanged for every
 * tree the token form can carry. The builder as written (push only when the
 * current map is non-empty) loses the nesting: after an element that
 * started out empty, the next sibling is built inside it.
 */
module RoundTrip {
  import opened Results
  import opened Text
  import opened JsonTree
  import opened XmlTokens
  import opened TreeBuilder
  import opened BuilderFacts
  import opened TreeEmitter

  /**
   * A map the token form carries without loss: every string is element text
   * under `#text`, already trimmed and non-empty (attributes are not
   * emitted), and there are no other kinds of value.
   */
  predicate Representable(v: Value)
    decreases v
  {
    v.Node? &&
    forall k :: k in v.children ==>
      match v.children[k]
      case Str(t) => k == TextKey && TrimSpace(t) == t && t != ""
      case Node(_) => Representable(v.children[k])
      case Opaque => false
  }

  function Restrict(m: Tree, keys: seq<string>): (r: Tree)
    ensures r.Keys == m.Keys * (set k | k in keys)
  {
    map k | k in m && k in keys :: m[k]
  }

  lemma RunOne(policy: PushPolicy, s: State, t: Token)
    requires Inv(s)
    ensures Run(policy, s, [t]) == Step(policy, s, t)
  {
    assert [t][1..] == [];
  }

  /** A start element without attributes, under the push-always rule. */
  lemma StartWithoutAttrs(s: State, name: string)
    requires Inv(s)
    ensures Step(AlwaysPush, s, StartElement(ElementName(name), []))
         == s.(root := Put(s.root, s.cur, name, Node(map[])), cur := s.cur + [name],
               stack := s.stack + [s.cur], keyStack := s.keyStack + [name])
  {
    assert AttrMap([]) == map[];
  }

  /** An end element right after a push returns to the pushed map. */
  lemma EndAfterPush(s: State, n: Name, c: seq<string>, stack: seq<seq<string>>, keys: seq<string>, x: string)
    requires Inv(s) && s.stack == stack + [c] && s.keyStack == keys + [x]
    ensures Step(AlwaysPush, s, EndElement(n)) == s.(cur := c, stack := stack, keyStack := keys)
  {
    assert s.stack[..|stack|] == stack;
    assert s.keyStack[..|keys|] == keys;
  }

  /** The state right after the start token of an emitted element. */
  function Opened(s: State, name: string): State
  {
    s.(root := Put(s.root, s.cur, name, Node(map[])), cur := s.cur + [name],
       stack := s.stack + [s.cur], keyStack := s.keyStack + [name])
  }

  lemma OpenedFacts(s: State, name: string, e: seq<Token>)
    requires Inv(s)
    ensures Inv(Opened(s, name)) && Current(Opened(s, name)) == map[]
    ensures Run(AlwaysPush, s, [StartElement(ElementName(name), [])] + e) == Run(AlwaysPush, Opened(s, name), e)
  {
    StartWithoutAttrs(s, name);
    RunAppend(AlwaysPush, s, [StartElement(ElementName(name), [])], e);
    RunOne(AlwaysPush, s, StartElement(ElementName(name), []));
    LookupSnoc(Opened(s, name).root, s.cur, name);
  }

  lemma ClosedFacts(s: State, name: string, c: Tree)
    requires Inv(s)
    ensures var s2 := Opened(s, name).(root := SetNode(Opened(s, name).root, s.cur + [name], c));
      Inv(s2) ==> Run(AlwaysPush, s2, [EndElement(ElementName(name))]) == s.(root := Put(s.root, s.cur, name, Node(c)))
  {
    var s1 := Opened(s, name);
    var s2 := s1.(root := SetNode(s1.root, s.cur + [name], c));
    if Inv(s2) {
      RunOne(AlwaysPush, s2, EndElement(ElementName(name)));
      EndAfterPush(s2, ElementName(name), s.cur, s.stack, s.keyStack, name);
      PutThenReplace(s.root, s.cur, name, map[], c);
    }
  }

  /** Building the tokens of one element (closed) puts that element into the current map. */
  lemma {:induction false} MapToXmlRebuilds(order: KeyOrder, path: seq<string>, name: string, v: Value, s: State)
    requires Inv(s) && Representable(v) && ValidOrder(order, path, v)
    ensures Run(AlwaysPush, s, MapToXml(order, path, name, v) + [EndElement(ElementName(name))])
         == s.(root := Put(s.root, s.cur, name, v))
    decreases v, 1
  {
    var e := Entries(order, path, v, order(path));
    var s1 := Opened(s, name);
    assert Inv(s1) && Current(s1) == map[] by { OpenedFacts(s, name, e); }
    AllEntriesRebuild(order, path, v, s1);
    assert MapToXml(order, path, name, v) == [StartElement(ElementName(name), [])] + e;
    ElementRebuilt(s, name, v.children, e);
  }

  /** Building the tokens of all entries of `v` into an empty current map fills it with `v`'s entries. */
  lemma {:induction false} AllEntriesRebuild(order: KeyOrder, path: seq<string>, v: Value, s: State)
    requires Inv(s) && Current(s) == map[] && Representable(v) && ValidOrder(order, path, v)
    ensures Run(AlwaysPush, s, Entries(order, path, v, order(path))) == s.(root := SetNode(s.root, s.cur, v.children))
    decreases v, 0, |order(path)| + 1
  {
    var keys := order(path);
    assert Enumerates(keys, v.children);
    EntriesRebuild(order, path, v, keys, s);
    RestrictAll(v.children, keys);
    assert Current(s) + Restrict(v.children, keys) == v.children;
  }

  /** Start, the entries' tokens, end: the element's map is put into the current map. */
  lemma ElementRebuilt(s: State, name: string, c: Tree, e: seq<Token>)
    requires Inv(s) && Inv(Opened(s, name))
    requires Run(AlwaysPush, Opened(s, name), e) == Opened(s, name).(root := SetNode(Opened(s, name).root, s.cur + [name], c))
    ensures Run(AlwaysPush, s, [StartElement(ElementName(name), [])] + e + [EndElement(ElementName(name))])
         == s.(root := Put(s.root, s.cur, name, Node(c)))
  {
    var n := ElementName(name);
    OpenedFacts(s, name, e);
    RunAppend(AlwaysPush, s, [StartElement(n, [])] + e, [EndElement(n)]);
    ClosedFacts(s, name, c);
  }

  lemma DistinctTail(keys: seq<string>)
    requires keys != [] && Distinct(keys)
    ensures Distinct(keys[1..]) && keys[0] !in keys[1..]
  {
    forall i, j | 0 <= i < j < |keys[1..]| ensures keys[1..][i] != keys[1..][j] {
      assert keys[1..][i] == keys[i + 1] && keys[1..][j] == keys[j + 1];
    }
  }

  /** Adding entries one at a time: the first, then the rest. */
  lemma AccumulateEntries(s: State, k: string, val: Value, children: Tree, keys: seq<string>, n: Tree)
    requires Inv(s) && keys != [] && k == keys[0] && Distinct(keys) && k in children && children[k] == val
    requires n == Current(s.(root := Put(s.root, s.cur, k, val))) + Restrict(children, keys[1..])
    ensures SetNode(Put(s.root, s.cur, k, val), s.cur, n)
         == SetNode(s.root, s.cur, Current(s) + Restrict(children, keys))
  {
    assert Current(s.(root := Put(s.root, s.cur, k, val))) == Current(s)[k := val];
    RestrictCons(Current(s), children, keys);
    SetNodeTwice(s.root, s.cur, Current(s)[k := val], Current(s) + Restrict(children, keys));
  }

  lemma RestrictCons(m: Tree, children: Tree, keys: seq<string>)
    requires keys != [] && Distinct(keys) && keys[0] in children
    ensures m[keys[0] := children[keys[0]]] + Restrict(children, keys[1..]) == m + Restrict(children, keys)
  {
    DistinctTail(keys);
  }

  /** Building the tokens of some entries adds exactly those entries to the current map. */
  lemma {:induction false} EntriesRebuild(order: KeyOrder, path: seq<string>, v: Value, keys: seq<string>, s: State)
    requires Inv(s) && Representable(v) && ValidOrder(order, path, v)
    requires Distinct(keys) && forall k :: k in keys ==> k in v.children
    ensures Run(AlwaysPush, s, Entries(order, path, v, keys))
         == s.(root := SetNode(s.root, s.cur, Current(s) + Restrict(v.children, keys)))
    decreases v, 0, |keys|
  {
    if keys == [] {
      assert Current(s) + Restrict(v.children, keys) == Current(s);
      SetNodeSame(s.root, s.cur);
    } else {
      var k := keys[0];
      RunAppend(AlwaysPush, s, EntryTokens(order, path, v, k), Entries(order, path, v, keys[1..]));
      EntryRebuild(order, path, v, k, s);
      var s1 := s.(root := Put(s.root, s.cur, k, v.children[k]));
      DistinctTail(keys);
      EntriesRebuild(order, path, v, keys[1..], s1);
      AccumulateEntries(s, k, v.children[k], v.children, keys, Current(s1) + Restrict(v.children, keys[1..]));
    }
  }

  lemma {:induction false} EntryRebuild(order: KeyOrder, path: seq<string>, v: Value, k: string, s: State)
    requires Inv(s) && Representable(v) && ValidOrder(order, path, v) && k in v.children
    ensures Run(AlwaysPush, s, EntryTokens(order, path, v, k)) == s.(root := Put(s.root, s.cur, k, v.children[k]))
    decreases v, 0, 0
  {
    var c := v.children[k];
    RepresentableChild(order, path, v, k);
    if c.Str? {
      assert EntryTokens(order, path, v, k) == [CharData(c.s)];
      TextRebuilds(s, c.s);
    } else {
      assert EntryTokens(order, path, v, k) == MapToXml(order, path + [k], k, c) + [EndElement(ElementName(k))];
      MapToXmlRebuilds(order, path + [k], k, c, s);
    }
  }

  /** What `Representable` and `ValidOrder` say about one entry of a map. */
  lemma RepresentableChild(order: KeyOrder, path: seq<string>, v: Value, k: string)
    requires Representable(v) && ValidOrder(order, path, v) && k in v.children
    ensures var c := v.children[k];
      && (c.Str? || c.Node?)
      && (c.Str? ==> k == TextKey && TrimSpace(c.s) == c.s && c.s != "")
      && (c.Node? ==> Representable(c) && ValidOrder(order, path + [k], c))
  {
  }

  /** Trimmed, non-empty text becomes the current map's `#text` entry. */
  lemma TextRebuilds(s: State, t: string)
    requires Inv(s) && TrimSpace(t) == t && t != ""
    ensures Run(AlwaysPush, s, [CharData(t)]) == s.(root := Put(s.root, s.cur, TextKey, Str(t)))
  {
    RunOne(AlwaysPush, s, CharData(t));
    var content := TrimSpace(t);
    assert content == t && |content| > 0;
    assert Step(AlwaysPush, s, CharData(t)) == s.(root := Put(s.root, s.cur, TextKey, Str(content)));
  }

  /** The top-level loop's tokens, built back, add the visited top-level elements to the current map. */
  lemma {:induction false} TopRebuild(order: KeyOrder, data: Tree, keys: seq<string>, s: State)
    requires Inv(s) && Distinct(keys) && forall k :: k in keys ==> k in data
    requires forall k :: k in data ==> Representable(data[k]) && ValidOrder(order, [k], data[k])
    requires EmitTop(order, data, keys).Success?
    ensures Run(AlwaysPush, s, EmitTop(order, data, keys).value)
         == s.(root := SetNode(s.root, s.cur, Current(s) + Restrict(data, keys)))
    decreases |keys|
  {
    if keys == [] {
      assert Current(s) + Restrict(data, keys) == Current(s);
      SetNodeSame(s.root, s.cur);
    } else {
      var k := keys[0];
      var t := MapToXml(order, [k], k, data[k]) + [EndElement(ElementName(k))];
      var u := EmitTop(order, data, keys[1..]).value;
      assert EmitTop(order, data, keys).value == t + u;
      RunAppend(AlwaysPush, s, t, u);
      MapToXmlRebuilds(order, [k], k, data[k], s);
      var s1 := s.(root := Put(s.root, s.cur, k, data[k]));
      DistinctTail(keys);
      TopRebuild(order, data, keys[1..], s1);
      AccumulateEntries(s, k, data[k], data, keys, Current(s1) + Restrict(data, keys[1..]));
    }
  }

  /** A token stream as the tokenizer would deliver it, without errors. */
  function Lift(toks: seq<Token>): (r: seq<Lexed>)
    ensures |r| == |toks| && forall i :: 0 <= i < |toks| ==> r[i] == Tok(toks[i])
  {
    seq(|toks|, i requires 0 <= i < |toks| => Tok(toks[i]))
  }

  lemma {:induction false} LiftedTokens(toks: seq<Token>)
    ensures TokensBeforeError(Lift(toks)) == toks
    decreases |toks|
  {
    if toks != [] {
      assert Lift(toks)[1..] == Lift(toks[1..]);
      LiftedTokens(toks[1..]);
    }
  }

  /**
   * Emitting a document's element tree and building the tokens back with the
   * push-always builder gives the same tree, whatever order Go's map
   * iteration picks, for every tree whose top-level values are maps the token
   * form carries. Declarations and DOCTYPE travel in the header text, not in
   * the tokens, so the rebuilt document has none.
   */
  lemma EmitThenBuild(doc: Document, order: KeyOrder)
    requires Enumerates(order([]), doc.data)
    requires forall k :: k in doc.data ==> Representable(doc.data[k]) && ValidOrder(order, [k], doc.data[k])
    ensures EmitTop(order, doc.data, order([])).Success? ==>
      ConvertXmlToJson(AlwaysPush, Lift(EmitTop(order, doc.data, order([])).value))
        == Success(Document([], "", doc.data))
  {
    var r := EmitTop(order, doc.data, order([]));
    if r.Success? {
      BuildsTopLevel(order, doc.data, r.value);
      ConvertLifted(AlwaysPush, Initial, r.value);
    }
  }

  /** The top-level tokens, built from the initial state, give exactly the tree and nothing else. */
  lemma BuildsTopLevel(order: KeyOrder, data: Tree, toks: seq<Token>)
    requires Enumerates(order([]), data)
    requires forall k :: k in data ==> Representable(data[k]) && ValidOrder(order, [k], data[k])
    requires EmitTop(order, data, order([])) == Success(toks)
    ensures Run(AlwaysPush, Initial, toks) == Initial.(root := data)
  {
    var keys := order([]);
    TopRebuild(order, data, keys, Initial);
    RestrictAll(data, keys);
    assert Current(Initial) + Restrict(data, keys) == data by {
      assert Current(Initial) == map[];
    }
  }

  lemma RestrictAll(m: Tree, keys: seq<string>)
    requires forall k :: k in m ==> k in keys
    ensures Restrict(m, keys) == m
  {
  }

  /** A stream without syntax errors converts to the document its tokens build. */
  lemma ConvertLifted(policy: PushPolicy, s: State, toks: seq<Token>)
    requires Inv(s)
    ensures var e := Run(policy, s, toks);
      ConvertFrom(policy, s, Lift(toks)) == Success(Document(e.declarations, e.doctype, e.root))
  {
    var lex := Lift(toks);
    assert forall i :: 0 <= i < |lex| ==> !lex[i].SyntaxError?;
    LiftedTokens(toks);
  }

  /** The keys visited for the one-element document of the counterexample. */
  function SampleOrder(path: seq<string>): seq<string>
  {
    if path == [] then ["r"] else if path == ["r"] then ["a", "b"] else []
  }

  /** `<r><a/><b/></r>` as a tree: two empty siblings inside `r`. */
  function SampleTree(): Tree
  {
    map["r" := Node(map["a" := Node(map[]), "b" := Node(map[])])]
  }

  /** The tokens the emitter produces for `SampleTree` in `SampleOrder`. */
  lemma SampleTokens()
    ensures EmitTop(SampleOrder, SampleTree(), ["r"]) == Success(SampleStream())
  {
    var vr := SampleTree()["r"];
    var e := Node(map[]);
    assert ["r"] + ["a"] == ["r", "a"] && ["r"] + ["b"] == ["r", "b"];
    assert SampleOrder(["r", "a"]) == [] && SampleOrder(["r", "b"]) == [];
    assert MapToXml(SampleOrder, ["r", "a"], "a", e) == [StartElement(ElementName("a"), [])];
    assert MapToXml(SampleOrder, ["r", "b"], "b", e) == [StartElement(ElementName("b"), [])];
    assert EntryTokens(SampleOrder, ["r"], vr, "a") == [StartElement(ElementName("a"), []), EndElement(ElementName("a"))];
    assert EntryTokens(SampleOrder, ["r"], vr, "b") == [StartElement(ElementName("b"), []), EndElement(ElementName("b"))];
    assert SampleOrder(["r"]) == ["a", "b"] && ["a", "b"][1..] == ["b"] && ["b"][1..] == [];
    assert Entries(SampleOrder, ["r"], vr, ["b"]) == EntryTokens(SampleOrder, ["r"], vr, "b");
    assert Entries(SampleOrder, ["r"], vr, ["a", "b"])
        == EntryTokens(SampleOrder, ["r"], vr, "a") + Entries(SampleOrder, ["r"], vr, ["b"]);
    var t := MapToXml(SampleOrder, ["r"], "r", vr) + [EndElement(ElementName("r"))];
    assert t == [
      StartElement(ElementName("r"), []), StartElement(ElementName("a"), []), EndElement(ElementName("a")),
      StartElement(ElementName("b"), []), EndElement(ElementName("b")), EndElement(ElementName("r"))];
    assert !HasUnnamedStart(t) by {
      forall i | 0 <= i < |t| && t[i].StartElement? ensures t[i].name.local != "" {
      }
    }
    assert EmitTop(SampleOrder, SampleTree(), ["r"][1..]) == Success([]);
    assert t + [] == t;
  }

  function SampleStream(): seq<Token>
  {
    [StartElement(ElementName("r"), []), StartElement(ElementName("a"), []), EndElement(ElementName("a")),
     StartElement(ElementName("b"), []), EndElement(ElementName("b")), EndElement(ElementName("r"))]
  }

  /** The state the as-written builder reaches after `<r>`. */
  function SampleAfterR(): State
  {
    Initial.(root := map["r" := Node(map[])], cur := ["r"])
  }

  /** The state after `<r><a>`: `a` is entered but nothing was pushed. */
  function SampleAfterA(): State
  {
    Initial.(root := map["r" := Node(map["a" := Node(map[])])], cur := ["r", "a"])
  }

  /** The state the as-written builder ends in: `b` inside `a`, nothing on the stack. */
  function SampleAfterB(): State
  {
    Initial.(root := map["r" := Node(map["a" := Node(map["b" := Node(map[])])])], cur := ["r", "a", "b"])
  }

  lemma RunCons(policy: PushPolicy, s: State, toks: seq<Token>)
    requires Inv(s) && toks != []
    ensures Run(policy, s, toks) == Run(policy, Step(policy, s, toks[0]), toks[1..])
  {
  }

  lemma SampleStepR()
    ensures Step(AsWritten, Initial, StartElement(ElementName("r"), [])) == SampleAfterR()
  {
    assert AttrMap([]) == map[];
  }

  lemma SampleStepA()
    ensures Inv(SampleAfterR())
    ensures Step(AsWritten, SampleAfterR(), StartElement(ElementName("a"), [])) == SampleAfterA()
  {
    var s := SampleAfterR();
    assert Lookup(s.root, ["r"]) == Some(map[]);
    assert AttrMap([]) == map[];
    assert SetNode(s.root, ["r"], map["a" := Node(map[])]) == SampleAfterA().root;
  }

  lemma SampleStepB()
    ensures Inv(SampleAfterA())
    ensures Step(AsWritten, SampleAfterA(), StartElement(ElementName("b"), [])) == SampleAfterB()
  {
    var s := SampleAfterA();
    assert Lookup(s.root, ["r", "a"]) == Some(map[]) by {
      assert ["r", "a"][1..] == ["a"];
    }
    assert AttrMap([]) == map[];
    assert SetNode(s.root, ["r", "a"], map["b" := Node(map[])]) == SampleAfterB().root by {
      assert SetNode(map["a" := Node(map[])], ["a"], map["b" := Node(map[])]) == map["a" := Node(map["b" := Node(map[])])];
      assert ["r", "a"][1..] == ["a"];
    }
  }

  lemma SampleInvB()
    ensures Inv(SampleAfterB())
  {
    var s := SampleAfterB();
    assert ["r", "a", "b"][1..] == ["a", "b"] && ["a", "b"][1..] == ["b"];
    assert Lookup(s.root, s.cur) == Some(map[]);
  }

  /** With nothing pushed, end elements do nothing. */
  lemma EndWithEmptyStack(s: State, n: Name)
    requires Inv(s) && s.stack == []
    ensures Step(AsWritten, s, EndElement(n)) == s
  {
  }

  lemma AsWrittenSampleOpening()
    ensures Inv(SampleAfterA())
    ensures Run(AsWritten, Initial, SampleStream()) == Run(AsWritten, SampleAfterA(), SampleStream()[2..])
  {
    var toks := SampleStream();
    SampleStepR();
    SampleStepA();
    RunCons(AsWritten, Initial, toks);
    RunCons(AsWritten, SampleAfterR(), toks[1..]);
    assert toks[1..][0] == toks[1] && toks[1..][1..] == toks[2..];
  }

  lemma AsWrittenSampleRest()
    ensures Inv(SampleAfterA())
    ensures Run(AsWritten, SampleAfterA(), SampleStream()[2..]) == SampleAfterB()
  {
    var toks := SampleStream();
    var a := SampleAfterA();
    SampleStepB();
    assert Run(AsWritten, a, toks[2..]) == Run(AsWritten, a, toks[3..]) by {
      EndWithEmptyStack(a, ElementName("a"));
      RunCons(AsWritten, a, toks[2..]);
      assert toks[2..][0] == toks[2] && toks[2..][1..] == toks[3..];
    }
    assert Run(AsWritten, a, toks[3..]) == Run(AsWritten, SampleAfterB(), toks[4..]) by {
      RunCons(AsWritten, a, toks[3..]);
      assert toks[3..][0] == toks[3] && toks[3..][1..] == toks[4..];
    }
    AsWrittenSampleClosing();
  }

  lemma AsWrittenSampleClosing()
    ensures Inv(SampleAfterB())
    ensures Run(AsWritten, SampleAfterB(), SampleStream()[4..]) == SampleAfterB()
  {
    var toks := SampleStream();
    var b := SampleAfterB();
    SampleInvB();
    EndWithEmptyStack(b, ElementName("b"));
    EndWithEmptyStack(b, ElementName("r"));
    RunCons(AsWritten, b, toks[4..]);
    assert toks[4..][0] == toks[4] && toks[4..][1..] == toks[5..];
    RunCons(AsWritten, b, toks[5..]);
    assert toks[5..][0] == toks[5] && toks[5..][1..] == [];
  }

  /**
   * The builder as written nests `b` inside `a`: `r` and then `a` are still
   * empty when the next start element arrives, so nothing is pushed, the end
   * tokens cannot pop, and each later element lands in the one before it.
   * The push-always builder gets the sample back.
   */
  lemma AsWrittenLosesNesting()
    ensures EmitTop(SampleOrder, SampleTree(), ["r"]).Success?
    ensures var toks := EmitTop(SampleOrder, SampleTree(), ["r"]).value;
      && ConvertXmlToJson(AsWritten, Lift(toks))
           == Success(Document([], "", map["r" := Node(map["a" := Node(map["b" := Node(map[])])])]))
      && ConvertXmlToJson(AlwaysPush, Lift(toks)) == Success(Document([], "", SampleTree()))
  {
    SampleTokens();
    AsWrittenSampleResult();
    SampleRebuilds();
  }

  lemma AsWrittenSampleResult()
    ensures ConvertXmlToJson(AsWritten, Lift(SampleStream()))
         == Success(Document([], "", map["r" := Node(map["a" := Node(map["b" := Node(map[])])])]))
  {
    ConvertLifted(AsWritten, Initial, SampleStream());
    AsWrittenSampleOpening();
    AsWrittenSampleRest();
  }

  /** The sample satisfies the round-trip theorem's conditions. */
  lemma SampleRebuilds()
    ensures EmitTop(SampleOrder, SampleTree(), ["r"]).Success?
    ensures ConvertXmlToJson(AlwaysPush, Lift(EmitTop(SampleOrder, SampleTree(), ["r"]).value))
         == Success(Document([], "", SampleTree()))
  {
    SampleTokens();
    SampleConditions();
    EmitThenBuild(Document([], "", SampleTree()), SampleOrder);
  }

  lemma SampleConditions()
    ensures Enumerates(SampleOrder([]), SampleTree())
    ensures forall k :: k in SampleTree() ==> Representable(SampleTree()[k]) && ValidOrder(SampleOrder, [k], SampleTree()[k])
  {
    var vr := SampleTree()["r"];
    assert Enumerates(SampleOrder([]), SampleTree()) by {
      assert Distinct(["r"]);
    }
    assert ValidOrder(SampleOrder, ["r"], vr) by {
      assert ["r"] + ["a"] == ["r", "a"] && ["r"] + ["b"] == ["r", "b"];
      assert ValidOrder(SampleOrder, ["r", "a"], Node(map[]));
      assert ValidOrder(SampleOrder, ["r", "b"], Node(map[]));
      assert Distinct(["a", "b"]);
      assert Enumerates(["a", "b"], vr.children);
    }
    assert Representable(vr) by {
      assert Representable(Node(map[]));
    }
  }
}

=== FILE: text.dfy ===
/**
 * The string helpers the converter relies on: Go's `bytes.TrimSpace` /
 * `strings.TrimSpace` (which trim every character `unicode.IsSpace`
 * accepts) and `strings.HasPrefix`. Strings are sequences of code points;
 * the UTF-8 byte view Go works on is not modelled.
 */
module Text {

  /** Go's `unicode.IsSpace`: the Latin-1 spaces plus Unicode White_Space. */
  predicate IsSpace(c: char)
  {
    || c == ' ' || c == '\t' || c == '\n' || c == '\r'
    || c == '\U{0B}' || c == '\U{0C}' || c == '\U{85}' || c == '\U{A0}'
    || c == '\U{1680}' || ('\U{2000}' <= c <= '\U{200A}')
    || c == '\U{2028}' || c == '\U{2029}' || c == '\U{202F}'
    || c == '\U{205F}' || c == '\U{3000}'
  }

  predicate AllSpace(s: string)
  {
    forall i :: 0 <= i < |s| ==> IsSpace(s[i])
  }

  predicate HasPrefix(s: string, prefix: string)
  {
    |prefix| <= |s| && s[..|prefix|] == prefix
  }

  /** Drops leading white space. */
  function TrimLeft(s: string): (r: string)
    ensures |r| <= |s| && r == s[|s| - |r|..]
    ensures AllSpace(s[..|s| - |r|])
    ensures r == [] || !IsSpace(r[0])
  {
    if |s| > 0 && IsSpace(s[0]) then
      var r := TrimLeft(s[1..]);
      assert s[1..][..|s| - 1 - |r|] == s[1..|s| - |r|];
      r
    else s
  }

  /** Drops trailing white space. */
  function TrimRight(s: string): (r: string)
    ensures |r| <= |s| && r == s[..|r|]
    ensures AllSpace(s[|r|..])
    ensures r == [] || !IsSpace(r[|r| - 1])
  {
    if |s| > 0 && IsSpace(s[|s| - 1]) then
      var r := TrimRight(s[..|s| - 1]);
      assert s[..|s| - 1][|r|..] == s[|r|..|s| - 1];
      assert forall k :: |r| <= k < |s| ==> IsSpace(s[k]) by {
        forall k | |r| <= k < |s| ensures IsSpace(s[k]) {
          if k < |s| - 1 { assert s[k] == s[..|s| - 1][|r|..][k - |r|]; }
        }
      }
      r
    else s
  }

  /**
   * Go's `TrimSpace`: the slice of `s` left after dropping white space at
   * both ends; it neither starts nor ends with white space.
   */
  function TrimSpace(s: string): (r: string)
    ensures exists i, j :: 0 <= i <= j <= |s| && r == s[i..j] && AllSpace(s[..i]) && AllSpace(s[j..])
    ensures r == [] || (!IsSpace(r[0]) && !IsSpace(r[|r| - 1]))
  {
    TrimBothEnds(s);
    TrimRight(TrimLeft(s))
  }

  /** Trimming the left and then the right end leaves a slice with only white space around it. */
  lemma TrimBothEnds(s: string)
    ensures var r := TrimRight(TrimLeft(s));
      && (exists i, j :: 0 <= i <= j <= |s| && r == s[i..j] && AllSpace(s[..i]) && AllSpace(s[j..]))
      && (r == [] || (!IsSpace(r[0]) && !IsSpace(r[|r| - 1])))
  {
    var l := TrimLeft(s);
    var r := TrimRight(l);
    var i, j := |s| - |l|, |s| - |l| + |r|;
    assert r == s[i..j] by { assert l == s[i..]; assert r == l[..|r|]; }
    assert AllSpace(s[j..]) by { assert s[j..] == l[|r|..]; }
    assert r == [] || !IsSpace(r[0]) by { assert r != [] ==> r[0] == l[0]; }
    assert AllSpace(s[..i]);
  }

  /** Trimming removes everything exactly when everything is white space. */
  lemma TrimSpaceEmptyIff(s: string)
    ensures TrimSpace(s) == [] <==> AllSpace(s)
  {
  }
}

=== FILE: tokens.dfy ===
/**
 * The token stream of Go's `encoding/xml`, as the converter sees it. The
 * tokenizer and the encoder themselves are not part of this model; only
 * the tokens they exchange with the converter are.
 */
module XmlTokens {
  import opened Results

  /** A qualified name: namespace (or prefix) and local part. */
  datatype Name = Name(space: string, local: string)

  datatype Attr = Attr(name: Name, value: string)

  datatype Token =
    | StartElement(name: Name, attrs: seq<Attr>)
    | EndElement(name: Name)
    | CharData(text: string)
    | Comment(text: string)
    | ProcInst(target: string, inst: string)
    | Directive(text: string)

  /** What one call of the tokenizer yields: a token, or the error that ends the stream. */
  datatype Lexed = Tok(token: Token) | SyntaxError(message: string)

  /**
   * Replays start and end tokens against the names still open; `None` when
   * an end token does not close the innermost open element.
   */
  function Nest(toks: seq<Token>, open: seq<Name>): Option<seq<Name>>
  {
    if toks == [] then Some(open)
    else match toks[0]
      case StartElement(n, _) => Nest(toks[1..], open + [n])
      case EndElement(n) =>
        if open != [] && open[|open| - 1] == n then Nest(toks[1..], open[..|open| - 1]) else None
      case _ => Nest(toks[1..], open)
  }

  /** Every element opened in `toks` is closed, innermost first, by an end token of the same name. */
  predicate WellNested(toks: seq<Token>)
  {
    Nest(toks, []) == Some([])
  }

  /** Replaying a concatenation replays the first part, then the second from where it left off. */
  lemma {:induction false} NestAppend(a: seq<Token>, b: seq<Token>, open: seq<Name>)
    ensures Nest(a + b, open) == (match Nest(a, open) case Some(o) => Nest(b, o) case None => None)
    decreases |a|
  {
    if a == [] {
      assert a + b == b;
    } else {
      assert (a + b)[0] == a[0] && (a + b)[1..] == a[1..] + b;
      match a[0]
      case StartElement(n, _) => NestAppend(a[1..], b, open + [n]);
      case EndElement(n) =>
        if open != [] && open[|open| - 1] == n {
          NestAppend(a[1..], b, open[..|open| - 1]);
        }
      case _ => NestAppend(a[1..], b, open);
    }
  }
}

=== FILE: tools.dfy ===
/**
 * The embedded-tool registry: a temporary directory, a map from tool name
 * to the path the tool was written to, and an `initialized` flag. File
 * system and process calls are outcomes handed in as parameters; the
 * registry is the value the Go globals hold between calls.
 */
module ToolRegistry {
  import opened Results
  import opened FilePaths

  datatype Registry = Registry(tempDir: string, toolPaths: map<string, string>, initialized: bool)

  const Empty: Registry := Registry("", map[], false)

  /**
   * What the outside world answers during one `SetupTool` call: the
   * directory `MkdirTemp` created (or its error), whether the asset is
   * embedded, and whether writing the tool file succeeded.
   */
  datatype SetupWorld = SetupWorld(mkdirTemp: Result<string, string>, assetFound: bool, writeOk: bool)

  /** `MkdirTemp` never reports success with an empty directory name. */
  predicate Plausible(world: SetupWorld)
  {
    world.mkdirTemp.Success? ==> world.mkdirTemp.value != ""
  }

  datatype ToolError =
    | TempDirFailed(message: string)
    | AssetMissing(assetPath: string)
    | WriteFailed(toolName: string)
    | NotInitialized(toolName: string)
    | RunFailed(toolName: string, message: string)

  datatype SetupResult = SetupResult(reg: Registry, error: Option<ToolError>)

  /**
   * The directory is set exactly when the registry is initialized, and
   * every registered path lies directly inside it.
   */
  predicate Valid(reg: Registry)
  {
    && (reg.tempDir != "" <==> reg.initialized)
    && forall t :: t in reg.toolPaths ==>
         reg.tempDir != "" && HasDirPrefix(reg.toolPaths[t], reg.tempDir)
  }

  predicate HasDirPrefix(path: string, dir: string)
  {
    |dir| + 1 <= |path| && path[..|dir| + 1] == dir + [Separator]
  }

  /** The directory the setup works in: the existing one, or the one it creates. */
  function DirAfterSetup(reg: Registry, world: SetupWorld): string
  {
    if reg.tempDir != "" then reg.tempDir
    else if world.mkdirTemp.Success? then world.mkdirTemp.value
    else ""
  }

  /**
   * `SetupTool`: creates the temporary directory only when none is set,
   * then writes the embedded asset there under its base name and records
   * that path for the tool, replacing any earlier entry for the name. A
   * failure records nothing, though a directory created before it stays.
   */
  function SetupTool(reg: Registry, toolName: string, assetPath: string, world: SetupWorld): (r: SetupResult)
    ensures r.reg.tempDir == DirAfterSetup(reg, world)
    ensures reg.tempDir != "" ==> r.reg.initialized == reg.initialized
    ensures reg.tempDir == "" && world.mkdirTemp.Success? ==> r.reg.initialized
    ensures r.error.None? ==> r.reg.toolPaths == reg.toolPaths[toolName := Join(r.reg.tempDir, Base(assetPath))]
    ensures r.error.Some? ==> r.reg.toolPaths == reg.toolPaths
    ensures r.error.None? <==> (reg.tempDir != "" || world.mkdirTemp.Success?) && world.assetFound && world.writeOk
    ensures reg.tempDir == "" && world.mkdirTemp.Failure? ==>
      r == SetupResult(reg, Some(TempDirFailed(world.mkdirTemp.error)))
    ensures (reg.tempDir != "" || world.mkdirTemp.Success?) && !world.assetFound ==>
      r.error == Some(AssetMissing(assetPath))
    ensures (reg.tempDir != "" || world.mkdirTemp.Success?) && world.assetFound && !world.writeOk ==>
      r.error == Some(WriteFailed(toolName))
  {
    if reg.tempDir == "" && world.mkdirTemp.Failure? then
      SetupResult(reg, Some(TempDirFailed(world.mkdirTemp.error)))
    else
      var reg1 := if reg.tempDir == "" then reg.(tempDir := world.mkdirTemp.value, initialized := true) else reg;
      if !world.assetFound then SetupResult(reg1, Some(AssetMissing(assetPath)))
      else
        var toolPath := Join(reg1.tempDir, Base(assetPath));
        if !world.writeOk then SetupResult(reg1, Some(WriteFailed(toolName)))
        else SetupResult(reg1.(toolPaths := reg1.toolPaths[toolName := toolPath]), None)
  }

  /** Once a directory is set, what `MkdirTemp` would answer does not matter. */
  lemma SetupKeepsDirectory(reg: Registry, toolName: string, assetPath: string, world: SetupWorld, other: Result<string, string>)
    requires reg.tempDir != ""
    ensures SetupTool(reg, toolName, assetPath, world) == SetupTool(reg, toolName, assetPath, world.(mkdirTemp := other))
  {
  }

  /** Setting up keeps the registry valid. */
  lemma SetupPreservesValid(reg: Registry, toolName: string, assetPath: string, world: SetupWorld)
    requires Valid(reg) && Plausible(world)
    ensures Valid(SetupTool(reg, toolName, assetPath, world).reg)
  {
    var r := SetupTool(reg, toolName, assetPath, world);
    if r.error.None? {
      var d := r.reg.tempDir;
      var b := Base(assetPath);
      assert Join(d, b) == d + [Separator] + b;
      assert HasDirPrefix(Join(d, b), d);
    }
  }

  /** `GetToolPath`: the recorded path and whether there is one (Go's zero value "" otherwise). */
  function GetToolPath(reg: Registry, toolName: string): (r: (string, bool))
    ensures r.1 <==> toolName in reg.toolPaths
    ensures r.1 ==> r.0 == reg.toolPaths[toolName]
    ensures !r.1 ==> r.0 == ""
  {
    if toolName in reg.toolPaths then (reg.toolPaths[toolName], true) else ("", false)
  }

  /** `IsToolAvailable` answers what `GetToolPath` reports. */
  function IsToolAvailable(reg: Registry, toolName: string): (r: bool)
    ensures r == GetToolPath(reg, toolName).1
  {
    toolName in reg.toolPaths
  }

  /** A successful setup makes the tool available at the path it wrote. */
  lemma SetupRegisters(reg: Registry, toolName: string, assetPath: string, world: SetupWorld)
    requires SetupTool(reg, toolName, assetPath, world).error.None?
    ensures var r := SetupTool(reg, toolName, assetPath, world).reg;
      && IsToolAvailable(r, toolName)
      && GetToolPath(r, toolName) == (Join(r.tempDir, Base(assetPath)), true)
      && forall t :: t != toolName ==> GetToolPath(r, t) == GetToolPath(reg, t)
  {
  }

  /** A command `ExecuteTool` would start. */
  datatype Command = Command(path: string, args: seq<string>)

  /** The lookup at the head of `ExecuteTool`: which program would run, if any. */
  function CommandFor(reg: Registry, toolName: string, args: seq<string>): (r: Result<Command, ToolError>)
    ensures r.Failure? <==> !IsToolAvailable(reg, toolName)
    ensures r.Failure? ==> r.error == NotInitialized(toolName)
    ensures r.Success? ==> r.value == Command(GetToolPath(reg, toolName).0, args)
  {
    if toolName !in reg.toolPaths then Failure(NotInitialized(toolName))
    else Success(Command(reg.toolPaths[toolName], args))
  }

  /**
   * `ExecuteTool`, with the process run abstracted as `run` (the combined
   * output or the error of running a command).
   */
  function ExecuteTool(reg: Registry, toolName: string, args: seq<string>,
                       run: Command -> Result<string, string>): (r: Result<string, ToolError>)
    ensures (r.Failure? && r.error == NotInitialized(toolName)) <==> !IsToolAvailable(reg, toolName)
    ensures r.Success? ==> run(Command(GetToolPath(reg, toolName).0, args)) == Success(r.value)
    ensures r.Failure? && IsToolAvailable(reg, toolName) ==>
      && r.error.RunFailed? && r.error.toolName == toolName
      && run(Command(GetToolPath(reg, toolName).0, args)) == Failure(r.error.message)
  {
    match CommandFor(reg, toolName, args)
    case Failure(e) => Failure(e)
    case Success(c) =>
      match run(c)
      case Failure(m) => Failure(RunFailed(toolName, m))
      case Success(out) => Success(out)
  }

  /** An unregistered tool fails the same way whatever running would have done: nothing runs. */
  lemma ExecuteUnregistered(reg: Registry, toolName: string, args: seq<string>,
                            run: Command -> Result<string, string>)
    requires !IsToolAvailable(reg, toolName)
    ensures ExecuteTool(reg, toolName, args, run) == Failure(NotInitialized(toolName))
  {
  }

  /** A registered tool runs at its recorded path with the given arguments. */
  lemma ExecuteRegistered(reg: Registry, toolName: string, args: seq<string>,
                          run: Command -> Result<string, string>)
    requires IsToolAvailable(reg, toolName)
    ensures var c := Command(reg.toolPaths[toolName], args);
      && (run(c).Success? ==> ExecuteTool(reg, toolName, args, run) == Success(run(c).value))
      && (run(c).Failure? ==> ExecuteTool(reg, toolName, args, run) == Failure(RunFailed(toolName, run(c).error)))
  {
  }

  /**
   * `CleanupTools`: with a directory set, forgets it, every tool and the
   * initialized flag; without one, changes nothing.
   */
  function CleanupTools(reg: Registry): (r: Registry)
    ensures reg.tempDir != "" ==> r.tempDir == "" && r.toolPaths == map[] && !r.initialized
    ensures reg.tempDir == "" ==> r == reg
  {
    if reg.tempDir != "" then Empty else reg
  }

  /** On a valid registry, cleanup always ends in the empty registry, and a second cleanup does nothing. */
  lemma CleanupEmpties(reg: Registry)
    requires Valid(reg)
    ensures CleanupTools(reg) == Empty
    ensures CleanupTools(CleanupTools(reg)) == CleanupTools(reg)
  {
    if reg.tempDir == "" {
      assert reg.toolPaths == map[] by {
        forall t | t in reg.toolPaths ensures false {
        }
      }
    }
  }

  const BusyboxAsset: string := "resources/busybox64u.exe"
  const JqAsset: string := "resources/jq.exe"

  /**
   * The package initialiser: sets up busybox, then jq, from the empty
   * registry, ignoring both errors.
   */
  function Startup(busybox: SetupWorld, jq: SetupWorld): (r: Registry)
    ensures r.toolPaths.Keys <= {"busybox", "jq"}
    ensures r.initialized <==> busybox.mkdirTemp.Success? || jq.mkdirTemp.Success?
    ensures Plausible(busybox) && Plausible(jq) ==> Valid(r)
  {
    var r1 := SetupTool(Empty, "busybox", BusyboxAsset, busybox).reg;
    var r2 := SetupTool(r1, "jq", JqAsset, jq).reg;
    if Plausible(busybox) && Plausible(jq) then
      SetupPreservesValid(Empty, "busybox", BusyboxAsset, busybox);
      SetupPreservesValid(r1, "jq", JqAsset, jq);
      r2
    else r2
  }

  /**
   * When the first setup creates the directory and both writes succeed, both
   * tools are available side by side in that one directory; the second
   * setup creates no directory of its own.
   */
  lemma StartupRegistersBoth(busybox: SetupWorld, jq: SetupWorld)
    requires busybox.mkdirTemp.Success? && busybox.mkdirTemp.value != ""
    requires busybox.assetFound && busybox.writeOk && jq.assetFound && jq.writeOk
    ensures var r, d := Startup(busybox, jq), busybox.mkdirTemp.value;
      && r.tempDir == d && r.initialized
      && GetToolPath(r, "busybox") == (Join(d, Base(BusyboxAsset)), true)
      && GetToolPath(r, "jq") == (Join(d, Base(JqAsset)), true)
      && r.toolPaths.Keys == {"busybox", "jq"}
  {
    var r1 := SetupTool(Empty, "busybox", BusyboxAsset, busybox);
    assert r1.error.None?;
    SetupRegisters(r1.reg, "jq", JqAsset, jq);
  }
}

=== FILE: tree.dfy ===
/**
 * The JSON-side tree the converter builds and walks: Go's
 * `map[string]interface{}` whose values are strings or nested maps.
 * A map reached from the root is addressed by its key path, which is how
 * this model represents Go's aliased "current map" pointer.
 */
module JsonTree {
  import opened Results

  /**
   * A value stored in the tree. `Opaque` stands for every other value a JSON
   * decoder may produce (number, boolean, null, array); the emitter ignores it
   * and the builder never creates it.
   */
  datatype Value = Str(s: string) | Node(children: map<string, Value>) | Opaque

  type Tree = map<string, Value>

  /**
   * The value the converter serialises to JSON (Go's `XMLToJSON` struct):
   * the processing instructions seen, the DOCTYPE, and the element tree.
   */
  datatype Document = Document(declarations: seq<string>, doctype: string, data: Tree)

  /** The key under which an element's text is stored. */
  const TextKey: string := "#text"

  predicate IsPrefix<T(==)>(p: seq<T>, q: seq<T>)
  {
    |p| <= |q| && q[..|p|] == p
  }

  /** The map reached from `t` by following the keys of `p`, if every step is a map. */
  function Lookup(t: Tree, p: seq<string>): Option<Tree>
    decreases |p|
  {
    if p == [] then Some(t)
    else if p[0] in t && t[p[0]].Node? then Lookup(t[p[0]].children, p[1..])
    else None
  }

  predicate Resolves(t: Tree, p: seq<string>)
  {
    Lookup(t, p).Some?
  }

  /** Replaces the map at path `p` by `n`; a path that does not resolve changes nothing. */
  function SetNode(t: Tree, p: seq<string>, n: Tree): (r: Tree)
    ensures Resolves(t, p) ==> Lookup(r, p) == Some(n)
    ensures !Resolves(t, p) ==> r == t
    decreases |p|
  {
    if p == [] then n
    else if p[0] in t && t[p[0]].Node? then t[p[0] := Node(SetNode(t[p[0]].children, p[1..], n))]
    else t
  }

  /**
   * Go's `m[k] = v` where `m` is the map at path `p`: only that map gains or
   * overwrites the entry `k`.
   */
  function Put(t: Tree, p: seq<string>, k: string, v: Value): (r: Tree)
    ensures Resolves(t, p) ==> Lookup(r, p) == Some(Lookup(t, p).value[k := v])
    ensures !Resolves(t, p) ==> r == t
  {
    match Lookup(t, p)
    case None => t
    case Some(n) => SetNode(t, p, n[k := v])
  }

  /** One more step on a path: the child map under `k`, if there is one. */
  lemma {:induction false} LookupSnoc(t: Tree, p: seq<string>, k: string)
    ensures Lookup(t, p + [k]) ==
      (match Lookup(t, p)
       case Some(n) => if k in n && n[k].Node? then Some(n[k].children) else None
       case None => None)
    decreases |p|
  {
    if p != [] {
      assert (p + [k])[0] == p[0] && (p + [k])[1..] == p[1..] + [k];
      if p[0] in t && t[p[0]].Node? {
        LookupSnoc(t[p[0]].children, p[1..], k);
      }
    } else {
      assert [k][1..] == [];
    }
  }

  /** Every prefix of a resolving path resolves. */
  lemma {:induction false} ResolvesPrefix(t: Tree, p: seq<string>, q: seq<string>)
    requires Resolves(t, p) && IsPrefix(q, p)
    ensures Resolves(t, q)
    decreases |q|
  {
    if q != [] {
      assert p[0] == q[0];
      ResolvesPrefix(t[p[0]].children, p[1..], q[1..]);
    }
  }

  /** A second replacement at the same path discards the first. */
  lemma {:induction false} SetNodeTwice(t: Tree, p: seq<string>, a: Tree, b: Tree)
    ensures SetNode(SetNode(t, p, a), p, b) == SetNode(t, p, b)
    decreases |p|
  {
    if p != [] && p[0] in t && t[p[0]].Node? {
      SetNodeTwice(t[p[0]].children, p[1..], a, b);
    }
  }

  /** Putting back the map already at `p` changes nothing. */
  lemma {:induction false} SetNodeSame(t: Tree, p: seq<string>)
    requires Resolves(t, p)
    ensures SetNode(t, p, Lookup(t, p).value) == t
    decreases |p|
  {
    if p != [] {
      SetNodeSame(t[p[0]].children, p[1..]);
    }
  }

  /**
   * Replacing the child map under `k` of the map at `p` is replacing the
   * map at `p` by one whose entry `k` is the new child.
   */
  lemma {:induction false} SetNodeChild(t: Tree, p: seq<string>, k: string, c: Tree)
    requires Resolves(t, p)
    requires k in Lookup(t, p).value && Lookup(t, p).value[k].Node?
    ensures SetNode(t, p + [k], c) == SetNode(t, p, Lookup(t, p).value[k := Node(c)])
    decreases |p|
  {
    if p == [] {
      assert [k][1..] == [];
    } else {
      assert (p + [k])[0] == p[0] && (p + [k])[1..] == p[1..] + [k];
      SetNodeChild(t[p[0]].children, p[1..], k, c);
    }
  }

  /** Putting a child map and then replacing it is putting the replacement. */
  lemma PutThenReplace(t: Tree, p: seq<string>, k: string, a: Tree, c: Tree)
    requires Resolves(t, p)
    ensures SetNode(Put(t, p, k, Node(a)), p + [k], c) == Put(t, p, k, Node(c))
  {
    var m := Lookup(t, p).value;
    var t1 := Put(t, p, k, Node(a));
    SetNodeChild(t1, p, k, c);
    assert Lookup(t1, p).value[k := Node(c)] == m[k := Node(c)];
    SetNodeTwice(t, p, m[k := Node(a)], m[k := Node(c)]);
  }

  /** Following `p` and then `r` is following `p + r`. */
  lemma {:induction false} LookupAppend(t: Tree, p: seq<string>, r: seq<string>)
    ensures Lookup(t, p + r) ==
      (match Lookup(t, p)
       case Some(m) => Lookup(m, r)
       case None => None)
    decreases |p|
  {
    if p == [] {
      assert p + r == r;
    } else {
      assert (p + r)[0] == p[0] && (p + r)[1..] == p[1..] + r;
      if p[0] in t && t[p[0]].Node? {
        LookupAppend(t[p[0]].children, p[1..], r);
      }
    }
  }

  /**
   * Replacing the map at `p` leaves every map at a path that is neither an
   * ancestor nor a descendant of `p` as it was.
   */
  lemma {:induction false} SetNodeFrame(t: Tree, p: seq<string>, n: Tree, q: seq<string>)
    requires !IsPrefix(p, q) && !IsPrefix(q, p)
    ensures Lookup(SetNode(t, p, n), q) == Lookup(t, q)
    decreases |p|
  {
    assert p != [] && q != [];
    if p[0] in t && t[p[0]].Node? {
      var t' := SetNode(t, p, n);
      if q[0] == p[0] {
        assert !IsPrefix(p[1..], q[1..]) && !IsPrefix(q[1..], p[1..]);
        SetNodeFrame(t[p[0]].children, p[1..], n, q[1..]);
        assert Lookup(t', q) == Lookup(SetNode(t[p[0]].children, p[1..], n), q[1..]);
      } else {
        assert q[0] in t' <==> q[0] in t;
        assert q[0] in t ==> t'[q[0]] == t[q[0]];
      }
    }
  }

  /**
   * `m[k] = v` on the map at `p` changes no map outside the path to `p`
   * and the entry `k` itself: neither a map off that path nor one below a
   * sibling entry of `k`.
   */
  lemma PutFrame(t: Tree, p: seq<string>, k: string, v: Value, q: seq<string>)
    requires !IsPrefix(q, p) && !IsPrefix(p + [k], q)
    ensures Lookup(Put(t, p, k, v), q) == Lookup(t, q)
  {
    if Resolves(t, p) {
      var m := Lookup(t, p).value;
      if !IsPrefix(p, q) {
        SetNodeFrame(t, p, m[k := v], q);
      } else {
        var rest := q[|p|..];
        assert q == p + rest && rest != [];
        assert rest[0] != k;
        LookupAppend(Put(t, p, k, v), p, rest);
        LookupAppend(t, p, rest);
        assert Lookup(m[k := v], rest) == Lookup(m, rest);
      }
    }
  }

  /**
   * Between trees `t` and `t2`, the map at the prefix of `p` of length `i`
   * differs at most in the entry `p[i]` that leads down the path, which in
   * `t2` is still a map.
   */
  predicate AncestorKept(t: Tree, t2: Tree, p: seq<string>, i: int)
    requires 0 <= i < |p|
  {
    && Resolves(t, p[..i]) && Resolves(t2, p[..i])
    && var a, b := Lookup(t, p[..i]).value, Lookup(t2, p[..i]).value;
       p[i] in b && b[p[i]].Node? && b - {p[i]} == a - {p[i]}
  }

  /** Replacing the map at `p` keeps every other entry of every map above it. */
  lemma {:induction false} SetNodeAncestors(t: Tree, p: seq<string>, n: Tree, i: int)
    requires Resolves(t, p) && 0 <= i < |p|
    ensures AncestorKept(t, SetNode(t, p, n), p, i)
    decreases |p|
  {
    var t' := SetNode(t, p, n);
    if i == 0 {
      assert p[..0] == [];
    } else {
      var c := t[p[0]].children;
      assert p[..i][0] == p[0] && p[..i][1..] == p[1..][..i - 1];
      SetNodeAncestors(c, p[1..], n, i - 1);
      assert t'[p[0]] == Node(SetNode(c, p[1..], n));
    }
  }

  /**
   * `m[k] = v` on the map at `p` keeps every other entry, strings included,
   * of every map above it.
   */
  lemma PutAncestors(t: Tree, p: seq<string>, k: string, v: Value, i: int)
    requires Resolves(t, p) && 0 <= i < |p|
    ensures AncestorKept(t, Put(t, p, k, v), p, i)
  {
    SetNodeAncestors(t, p, Lookup(t, p).value[k := v], i);
  }
}
